=== FILE: README.md ===
# swift-lambda-tools: event parsers and the tagged-value codec, in Dafny

This project models two parts of the `swift-lambda-tools` library.

**Queue and notification events.** An AWS Lambda invocation delivers a JSON payload. The model covers:

- the SQS record parser, `SQSRecord(dict:)` with its helpers and the message-attribute value type;
- the SNS record parser, `SNSRecord(dict:)`;
- the batch rule that both event handlers share. A payload without a `Records` array of objects is acknowledged with an empty response, and no handler is called. Otherwise every record is parsed, the records that fail are dropped, and the survivors go to the user's handler in delivery order. A success is acknowledged with an empty response, and a failure is propagated. A single non-object entry in `Records` makes the whole batch count as missing; "## Findings" discusses this.

**The DynamoDB attribute-value codec.** The codec's implementation is not part of this model. What the model captures is the behaviour that the coding tests pin down, for the tests' `Person` record:

- values become `S`, `N`, `M` and `L` tagged values;
- a nil optional field is left out;
- key names are converted, at every depth, between camel case, snake case and Pascal case.

Modules:

| file | module | what it holds |
|---|---|---|
| wrappers.dfy | `Wrappers` | `Option` and `Result` |
| collections.dfy | `Collections` | Swift's `compactMap`, shown to be an order-preserving selection |
| json.dfy | `Json` | the JSON values of a payload and Swift's `as?` casts on them |
| foundation.dfy | `Foundation` | `Data`, `Date` and the Foundation parsers, taken as parameters |
| dispatch.dfy | `Dispatch` | the batch rule shared by both handlers |
| sqs.dfy | `SQS` | message attributes, `SQSRecord`, and the SQS handler |
| sqs_example.dfy | `SqsExample` | a one-message delivery, written out |
| sns.dfy | `SNS` | `SNSRecord` and the SNS handler |
| casing.dfy | `Casing` | the case converter and its round trips |
| tagged.dfy | `Tagged` | tagged values, decimal text for `N`, and key renaming at every depth |
| person.dfy | `PersonCodec` | the `Person` schema, its encoding and decoding, round trip and renaming |
| schema_keys.dfy | `SchemaKeys` | the snake and Pascal keys of the schema's field names |
| person_fixtures.dfy | `PersonFixtures` | the test person and the three items the tests expect |

The Foundation parsers are fields of a `Parsers` value that every parsing function takes:

- `Data(base64URLEncoded:)`;
- `Decimal(string:)`;
- `Int(_:)`;
- `TimeInterval(_:)`;
- `DateFormatter.date(from:)` for a given format.

So every property holds for any behaviour of those parsers.

## Model

| member | source | states |
|---|---|---|
| `SQS.ParseMessageAttributeValue` | Sources/SQS.swift:26-41 | An attribute exists exactly when `dataType` is a string. `stringValue` is the string under its key, or nil. A missing list is the empty list. A `stringListValues` that is an array of strings is kept as given. `binaryValue` is present exactly when its string decodes, and then it is the decoded bytes. A list that is missing or is not an array of strings becomes the empty list. No more binary entries come out than went in. |
| `SQS.BinaryListKeepsDecodableEntries` | Sources/SQS.swift:32-33 | `binaryListValues` are the entries that decode, in their original order. An entry is kept exactly when it decodes. |
| `SQS.NumberValue` | Sources/SQS.swift:46-53 | A number is present only for a `Number` or `Number.*` type that has a `stringValue`. For such a type it is the decimal reading of that string. |
| `SQS.NumberListValues` | Sources/SQS.swift:55-62 | The result is empty for a non-number type. It is never longer than `stringListValues`. |
| `SQS.NumberListKeepsParseableInOrder` | Sources/SQS.swift:56-57 | For a number type, the values are the list entries that parse as decimals, in order. An entry is kept exactly when it parses. |
| `SQS.NumberTypeExamples` | Sources/SQS.swift:47 | `Number` and `Number.float` count as number types. `String`, `Numbers` and `Number_x` do not. |
| `SQS.ExtractRootKey` | Sources/SQS.swift:147-149 | The result is present exactly when the key holds a string, and then it is that string. |
| `SQS.ExtractUnixTime` | Sources/SQS.swift:151-159 | A date is present exactly when the key holds a string that parses as a time interval. The date's seconds times 1000 equal the parsed millisecond count. |
| `SQS.MessageAttributes` | Sources/SQS.swift:129-139 | If `messageAttributes` is not a dictionary of dictionaries, the result is empty. Otherwise it holds exactly the keys whose attribute parses, each with its parsed attribute. |
| `SQS.ParseSqsRecord` | Sources/SQS.swift:103-145 | A record is produced exactly when all twelve conditions of the binding chain hold. Each field is the value found under its key. The count is the parsed integer, and the timestamps are the parsed dates. The attributes are `MessageAttributes`. |
| `SQS.Handle` | Sources/SQS.swift:186-201 | Without a `Records` array of objects, nothing is delivered and the response is empty. Otherwise the handler receives exactly the `compactMap` of `SQSRecord(dict:)` over the raw records: every record that parses, in delivery order, and no other. The delivered records number at most the raw records, and each is the parse of some raw record. A handler success answers `[:]`, and a handler failure propagates its error. |
| `SqsExample.OneMessageDelivered` | Sources/SQS.swift:103-145 | A payload with one complete message delivers exactly one record. It carries body `hi`, message id `m1`, receive count 1 and no attributes. This assumes parsers that read the two timestamps and the count. |
| `SqsExample.NoRecordsNoDelivery` | Sources/SQS.swift:198-200 | A payload whose `Records` is not an array reaches no handler and is acknowledged with an empty response. |
| `SNS.ParseSnsRecord` | Sources/SNS.swift:52-78 | A record is produced exactly when the nine bindings succeed. The timestamp is read with the fixed format. Each field is the string under its key. `subject` is the `Subject` string, or nil. |
| `SNS.SubjectNeverDecidesParsing` | Sources/SNS.swift:72 | Adding, changing or removing `Subject` never changes whether a record parses. The only effect is on `subject`. |
| `SNS.OnlyTimestampFormatMatters` | Sources/SNS.swift:34-41 | Two date parsers that agree on `yyyy-MM-dd'T'HH:mm:ss.SSSZ` give the same result. |
| `SNS.Handle` | Sources/SNS.swift:98-113 | Without a `Records` array of objects, nothing is delivered and the response is empty. Otherwise the handler receives exactly the `compactMap` of `SNSRecord(dict:)` over the raw records: every record that parses, in delivery order, and no other. Each delivered record is the parse of some raw record. A handler success answers `[:]`, and a handler failure propagates its error. |
| `Dispatch.Handle` | Sources/SQS.swift:190-199 | With no `Records` array, the handler is not called and the response is `[:]`. Otherwise the handler receives the `compactMap` of the raw records. The invocation succeeds exactly when the handler does, and with an empty response. A failure carries the handler's error. |
| `Dispatch.HandleDeliversParsedInOrder` | Sources/SQS.swift:191-192 | Delivered records sit at increasing raw positions. A position is chosen exactly when its record parses, and the delivered record is that parse. |
| `Dispatch.HandleDropsOnlyMalformed` | Sources/SNS.swift:103-104 | The number delivered is the number of raw records minus the number of malformed ones. |
| `Dispatch.HandleDeliversWellFormedBatch` | Sources/SQS.swift:191-192 | If every record parses, the whole batch is delivered position by position. |
| `Dispatch.OneMalformedRecordDropped` | Sources/SQS.swift:191-192 | When `Records` is an array of N objects and exactly one of them fails to parse, N - 1 records are delivered. |
| `Dispatch.RecordEntries` | Sources/SQS.swift:190 | The entries of `Records` are present exactly when it is an array, whatever its elements are, and they are its elements. |
| `Dispatch.HandleEachRecord` | Sources/SQS.swift:190-199 | The per-entry rule: without a `Records` array, nothing is delivered and the response is `[:]`. Otherwise the handler receives the `compactMap` over the entries, where a non-object entry counts as one malformed record. Success answers `[:]`; failure propagates. |
| `Dispatch.HandleEachRecordAgreesOnObjects` | Sources/SQS.swift:190-192 | When `Records` is an array of objects, the per-entry rule and the as-written rule give the same invocation. |
| `Dispatch.NonObjectEntryDropsBatch` | Sources/SQS.swift:190 | For `Records` holding one record that parses and one `null`, the as-written rule delivers nothing and answers `[:]`. The per-entry rule delivers the one record. |
| `Dispatch.OneMalformedEntryDropped` | Sources/SQS.swift:190-192 | Under the per-entry rule, N entries of which exactly one fails, for whatever reason, give N - 1 delivered records. |
| `Collections.CompactMapIsOrderedSubsequence` | Sources/SQS.swift:192 | `compactMap` keeps exactly the elements that map to a value, in their original order. |
| `Collections.CompactMapLength` | Sources/SQS.swift:192 | The output length is the input length minus the number of elements that map to nil. |
| `Collections.CompactMapAppend` | Sources/SQS.swift:192 | `compactMap` of a concatenation is the concatenation of the two `compactMap`s. |
| `Collections.CompactMapAllSome` | Sources/SQS.swift:192 | When every element maps to a value, the output has the same length and order. |
| `Collections.CompactMapOneNone` | Sources/SQS.swift:192 | When exactly one element maps to nil, the output is one shorter than the input. |
| `Collections.CompactMapPointwise` | Sources/SQS.swift:192 | Two sequences of the same length whose mapped elements agree position by position have the same `compactMap`. |
| `Json.AsStringArray` | Sources/SQS.swift:36 | `as? [String]` succeeds exactly on an array whose every element is a string, and keeps them in order. |
| `Json.AsObjectArray` | Sources/SQS.swift:190 | `as? [[String: Any]]` succeeds exactly on an array of objects. It gives their fields in order. |
| `Json.AsObjectOfObjects` | Sources/SQS.swift:129 | `as? [String: [String: Any]]` succeeds exactly when every value is an object. It keeps every key. |
| `Casing.CamelToSnakeHasNoUpper` | Tests/Dynamo/DynamoCodingTests.swift:229-287 | A snake key holds no capital letter. |
| `Casing.CamelToSnakeKeepsLowerWord` | Tests/Dynamo/DynamoCodingTests.swift:242-244 | A one-word lower-case name such as `age` is its own snake key. |
| `Casing.CamelToSnakeAppend` | Tests/Dynamo/DynamoCodingTests.swift:229-287 | Conversion works word by word: the snake form of a concatenation is the concatenation of the snake forms. |
| `Casing.CamelToSnakeCapitalisedWord` | Tests/Dynamo/DynamoCodingTests.swift:232 | A capitalised word `Name` becomes `_name`. |
| `Casing.CamelToSnakeJoinsWords` | Tests/Dynamo/DynamoCodingTests.swift:229-287 | Every underscore of a converted camel name opens a lower-case word. |
| `Casing.SnakeToCamelToSnake` | Tests/Dynamo/DynamoCodingTests.swift:289-351 | Reading a snake name as camel and writing it back gives the same name. |
| `Casing.CamelToSnakeToCamel` | Tests/Dynamo/DynamoCodingTests.swift:289-351 | A camel name without underscores survives a trip through snake case. |
| `Casing.ConvertRoundTrip` | Tests/Dynamo/DynamoCodingTests.swift:289-351 | A name well formed in the source style, converted to the target style and back, is unchanged. |
| `Casing.ConvertInjective` | Tests/Dynamo/DynamoCodingTests.swift:229-287 | Distinct well-formed names stay distinct after conversion, so no two fields share a key. |
| `Casing.ConvertLandsInTarget` | Tests/Dynamo/DynamoCodingTests.swift:354-412 | A converted name is well formed in the target style. Snake means no capitals and words joined by `_x`. Pascal means no underscore and no lower-case first letter. |
| `Casing.CamelToSnake` | Tests/Dynamo/DynamoCodingTests.swift:229-287 | Each capital letter becomes `_` and its lower-case letter, so a name keeps its length or grows, at most to double. What the conversion means is stated by the `CamelToSnake*` lemmas. |
| `Casing.SnakeToCamel` | Tests/Dynamo/DynamoCodingTests.swift:289-351 | Each `_x` becomes `X`, so a name never grows, and a name without an underscore is unchanged. |
| `Casing.Convert` | Tests/Dynamo/DynamoCodingTests.swift:229-287 | Settings with the same source and target style leave a name unchanged. Otherwise the name is read from the source style into camel case and written in the target style. |
| `Casing.ConvertCamelName` | Tests/Dynamo/DynamoCodingTests.swift:229-287 | A camel-case field name converts to its target form whatever the source style is, because every style reads it as itself. |
| `Casing.CamelToPascal` | Tests/Dynamo/DynamoCodingTests.swift:357 | The first letter is replaced by its capital, so it is not lower case. The rest of the name and its length are unchanged. |
| `Casing.PascalToCamel` | Tests/Dynamo/DynamoCodingTests.swift:414-476 | The first letter is replaced by its lower-case form, so it is not upper case. The rest of the name and its length are unchanged. |
| `Tagged.IntToDecimalRoundTrip` | Tests/Dynamo/DynamoCodingTests.swift:121-123 | The `N` text of an integer parses back to that integer. |
| `Tagged.ParseInt` | Tests/Dynamo/DynamoCodingTests.swift:180-182 | `N` text parses exactly when it is digits, optionally after a minus sign. Digits give their decimal value, and a minus sign gives its negation. |
| `PersonCodec.SeverityFromRawValue` | Tests/Dynamo/DynamoCodingTests.swift:16-22 | Exactly `low`, `medium` and `high` are severities, and each is the raw value of its case. |
| `PersonCodec.AnimalFromRawValue` | Tests/Dynamo/DynamoCodingTests.swift:38-51 | `dog` gives `.dog`, `cat` gives `.cat`, and any other string gives `.other` with that name. Encoding the result gives back the same string, and the result never has `dog` or `cat` as its `other` name. |
| `PersonCodec.DecodeAnimal` | Tests/Dynamo/DynamoCodingTests.swift:38-51 | An animal decodes exactly when the value is an `M` whose `rawValue` key holds an `S`. The animal is then read from that string, and never has `dog` or `cat` as `other`. A value that is not an `M` is a type mismatch. Inside an `M`, a failure is the error of decoding the `rawValue` string: a missing field or a type mismatch. |
| `PersonCodec.AnimalRoundTrip` | Tests/Dynamo/DynamoCodingTests.swift:38-60 | Every animal whose `other` name is not `dog` or `cat` decodes back to itself. |
| `PersonCodec.OtherNamedCatDecodesAsCat` | Tests/Dynamo/DynamoCodingTests.swift:44-49 | `.other(name: "cat")` comes back as `.cat`. |
| `PersonCodec.Equivalent` | Tests/Dynamo/DynamoCodingTests.swift:79-88 | Two people are `==` exactly when they agree once `thirdFavoriteAnimal` is cleared in both. |
| `PersonCodec.EquivalentIgnoresOnlyThird` | Tests/Dynamo/DynamoCodingTests.swift:79-88 | The record's `==` holds exactly when the two people differ at most in `thirdFavoriteAnimal`. |
| `PersonCodec.Required` | Tests/Dynamo/DynamoCodingTests.swift:69-77 | A missing non-optional field fails with `MissingRequiredField` under its key. |
| `PersonCodec.DecodeString` | Tests/Dynamo/DynamoCodingTests.swift:69-70 | A string decodes exactly when its key holds an `S`, and is that string. A missing key is `MissingRequiredField`, and any other value is a type mismatch. |
| `PersonCodec.DecodeInt` | Tests/Dynamo/DynamoCodingTests.swift:180-182 | An integer decodes exactly when its key holds an `N` whose text parses to a value in the 64-bit range, and the result is that value. A missing key is `MissingRequiredField`. Any other failure is a type mismatch. |
| `PersonCodec.DecodeOptionalAnimal` | Tests/Dynamo/DynamoCodingTests.swift:74-75 | An absent optional decodes as nil. A present one succeeds exactly when the animal decodes, giving that animal, and otherwise fails with the animal's error. |
| `PersonCodec.DecodeAllergy` | Tests/Dynamo/DynamoCodingTests.swift:24-30 | An allergy decodes exactly when the value is an `M` whose three strings decode and whose severity is a known raw value. It holds those three values. A value that is not an `M` is a type mismatch. Inside an `M`, a failure is the error of the first of `name`, `category` and `severity` that does not decode as a string, or else `UnknownVariant` with the unknown severity text. |
| `PersonCodec.DecodeAllergies` | Tests/Dynamo/DynamoCodingTests.swift:193-220 | An `L` decodes exactly when every element decodes, with the same length and order. On failure, the error is that of the first element that fails. |
| `PersonCodec.EncodeAnimal` | Tests/Dynamo/DynamoCodingTests.swift:53-60 | An animal is an `M` with the single key `rawValue`. That key holds its raw string: `dog`, `cat`, or the `other` name. |
| `PersonCodec.EncodeAllergy` | Tests/Dynamo/DynamoCodingTests.swift:24-30 | An allergy is an `M` with exactly the keys `name`, `category` and `severity`. When the keys are distinct, they hold the two strings and the severity's raw value. |
| `PersonCodec.EncodeRecord` | Tests/Dynamo/DynamoCodingTests.swift:108-165 | The encoded item has a key for each of the five required fields. It has a key for an optional field whenever that field is not nil. |
| `PersonCodec.RecordKeys` | Tests/Dynamo/DynamoCodingTests.swift:108-165 | An encoded item holds no other key: each key is a required field's, or an optional field's that is not nil. |
| `PersonCodec.EncodePerson` | Tests/Dynamo/DynamoCodingTests.swift:108-165 | Under any case settings, each field is found under its own converted key. Strings are `S`, the age is `N` with its decimal text, and allergies are an `L`. Every animal, including a non-nil optional one, is the `M` its `EncodeAnimal` gives. An optional key is present exactly when the field is not nil. |
| `PersonCodec.DecodeRecord` | Tests/Dynamo/DynamoCodingTests.swift:168-227 | A person decodes exactly when all seven field decoders succeed on their renamed keys, and holds what each decoded. A failure carries the first failing field's error, taking the fields in declaration order: `firstName` through `thirdFavoriteAnimal`, then `allergies`. |
| `PersonCodec.DecodeRecordOutcome` | Tests/Dynamo/DynamoCodingTests.swift:168-227 | Decoding succeeds exactly when no field fails. A failure carries the error of the first failing field in declaration order. |
| `PersonCodec.DecodePerson` | Tests/Dynamo/DynamoCodingTests.swift:168-227 | With case settings, decoding succeeds exactly when no field fails under its converted key. The decoded person then holds, field by field, what each decoder gave under that key. Otherwise the error is the first failing field's. A missing `firstName` key gives `MissingRequiredField` under that key. |
| `PersonCodec.EncodedFields` | Tests/Dynamo/DynamoCodingTests.swift:108-165 | Strings are `S`, the age is `N` with its decimal text, and animals are `M` with `rawValue`. Allergies are an `L` of `M`. An optional key is present exactly when the field is not nil. |
| `PersonCodec.AllergiesRoundTrip` | Tests/Dynamo/DynamoCodingTests.swift:134-163 | A list of allergies decodes back to itself, in order. |
| `PersonCodec.RecordRoundTrip` | Tests/Dynamo/DynamoCodingTests.swift:168-227 | Under any renaming that keeps field names apart, decoding an encoded person gives back that person. |
| `PersonCodec.RoundTrip` | Tests/Dynamo/DynamoCodingTests.swift:414-476 | Under any case settings, decoding with the settings used to encode gives back the person. This holds for every person whose animals' `other` names are not case names. |
| `PersonCodec.KeysSeparateFields` | Tests/Dynamo/DynamoCodingTests.swift:229-287 | Under any case settings, no two fields of one record get the same key. |
| `PersonCodec.EveryKeyIsRenamedField` | Tests/Dynamo/DynamoCodingTests.swift:108-165 | Every key at every depth of an encoded person is the renaming of one of the schema's field names. |
| `PersonCodec.EveryKeyInTargetStyle` | Tests/Dynamo/DynamoCodingTests.swift:354-412 | Encoding from camel case writes every key, at every depth, in the target style. |
| `PersonCodec.RecordRenamed` | Tests/Dynamo/DynamoCodingTests.swift:229-287 | Two namings give the same item up to renaming its keys, with the same tags, leaves and list order at every depth. |
| `PersonCodec.EncodingRenamesEveryKey` | Tests/Dynamo/DynamoCodingTests.swift:229-287 | The item encoded with case settings is the unconverted item with every key at every depth converted. |
| `SchemaKeys.SnakeKeys` | Tests/Dynamo/DynamoCodingTests.swift:230-286 | `firstName`, `secondFavoriteAnimal` and `rawValue` become `first_name`, `second_favorite_animal` and `raw_value`. `age`, `name` and the other one-word names are unchanged. |
| `SchemaKeys.PascalKeys` | Tests/Dynamo/DynamoCodingTests.swift:355-411 | Every field name gets a capital first letter: `FirstName`, `RawValue`, `Allergies`, `Name`, and so on. |
| `PersonFixtures.EncodeJane` | Tests/Dynamo/DynamoCodingTests.swift:108-166 | The test person encodes to exactly the item `testEncode` expects, with no `thirdFavoriteAnimal` key. |
| `PersonFixtures.EncodeJaneSnake` | Tests/Dynamo/DynamoCodingTests.swift:229-287 | With camel-to-snake settings it encodes to exactly the snake item. |
| `PersonFixtures.EncodeJanePascal` | Tests/Dynamo/DynamoCodingTests.swift:354-412 | With camel-to-Pascal settings it encodes to exactly the Pascal item. |
| `PersonFixtures.DecodeJane` | Tests/Dynamo/DynamoCodingTests.swift:168-227 | Each of the three items, read with its own settings, decodes to the test person. |
| `PersonFixtures.DecodeSnakeItemWithoutSettings` | Tests/Dynamo/DynamoCodingTests.swift:346-349 | A contrast to these lines, which decode the snake item with camel-to-snake settings. Read without any case settings, the same item fails because `firstName` is missing, so the settings are what make it decode. |

## Left out

- The Lambda runtime loop is not modelled: `SQS.run`, `SNS.run` and `Custom.run`. Nor is the `EventLoopGroup` or the futures. The handler is a function from the delivered records to success or an error, and the invocation's result is that outcome.
- `GroupedRecords` and `Record(meta:body:)` only wrap each parsed record twice, so the model delivers the parsed records themselves.
- Base64 decoding, `Decimal(string:)`, `Int(_:)`, `TimeInterval(_:)` and `DateFormatter` are not modelled. They are parameters, and nothing is assumed about them beyond what a lemma's requires says.
- `Date` holds an exact real number of seconds, so floating-point rounding of the millisecond division is not modelled.
- `Decimal` values are exact reals.
- The codec's own implementation, `toDynamo` and `fromDynamo`, is not part of this model. Nor is Swift's `Codable` reflection. The model is a codec for the fixed `Person` schema of the tests that reproduces their asserted items.
- The `NULL`, `BOOL`, `B`, `SS`, `NS` and `BS` tags are not modelled, because the schema never produces them.
- A nil optional is left out of the item, as the tests' expected items show, rather than written as a `NULL` value.
- Acronyms and digits inside names are not modelled, because the tests do not exercise them.
- `PersonCodec.RoundTrip` is stated only for animals whose `other` name is not `dog` or `cat`. The hand-written `init(from:)` reads such a name back as the named case, as `PersonCodec.OtherNamedCatDecodesAsCat` shows.
- `PersonCodec.DecodeInt` checks the 64-bit range of Swift's `Int`. The decoder's errors are simplified: a missing key is `MissingRequiredField`, and an unknown severity is `UnknownVariant`. Every other failure is `TypeMismatch`, including an `N` whose integer lies outside the 64-bit range.
- `Tagged.ParseInt`: the grammar of `N` text, an optional `-` followed by one or more decimal digits with leading zeros allowed, is a choice of this model. The decoder that reads `N` is not part of this model, and the tests pin only `"45"`. In particular, a leading `+`, which Swift's `Int(_:)` accepts, is rejected here.
- `SQS.NumberValue`, `SQS.NumberListValues`: `dataType` is compared with `Number` and `Number.` one Unicode scalar at a time. Swift compares `Character`s, which are grapheme clusters and use canonical equivalence. So a `dataType` such as `Number.` followed by a combining mark counts as a number type here but not in Swift. The model has no grapheme or normalisation rules.
- Only the ASCII letters `A` to `Z` and `a` to `z` change case. Other letters are left as they are.
- `TimeInterval(_:)` accepts `nan` and `inf`, but a real number cannot hold them. So `Parsers.timeInterval` yields only finite values, and the model does not capture dates built from non-finite intervals.
- Sample/Sources/main.swift, Sample/main.swift and Sample/Package.swift are not part of this model.

## Findings

| source | as written | input that shows it | evidently intended | confidence | as-written member | corrected member |
|---|---|---|---|---|---|---|
| Sources/SQS.swift:190 (the same cast is at Sources/SNS.swift:102) | `data["Records"] as? [[String: Any]]` casts the whole array at once. A single entry that is not an object fails the cast, so the batch is treated as having no `Records`: nothing is delivered, and the invocation answers `[:]`. | `Records: [<a record that parses>, null]` | Each entry is dropped on its own, like a record that fails to parse. Of N entries with one bad entry, N - 1 are delivered. | not executed | `Dispatch.NonObjectEntryDropsBatch` | `Dispatch.OneMalformedEntryDropped` (on `Dispatch.HandleEachRecord`) |

`SQS.Handle` and `SNS.Handle` still model the code as written. `Dispatch.HandleEachRecordAgreesOnObjects` shows that the two rules agree whenever `Records` holds only objects. So every property proved of the handlers carries over to the per-entry rule on such payloads.

=== FILE: casing.dfy ===
/**
 * Field-name case styles for the tagged-value codec. Camel case is the hub: a name is read
 * from its source style into camel case, then written out in the target style.
 * Only ASCII letters change case.
 */
module Casing {

  datatype CaseStyle = Camel | Snake | Pascal

  /** `.init(source:target:)`: the style of the native field names and the style on the wire. */
  datatype CaseSettings = CaseSettings(source: CaseStyle, target: CaseStyle)

  /** The default settings, which rename nothing. */
  const Identity: CaseSettings := CaseSettings(Camel, Camel)

  predicate IsUpper(c: char) { 'A' <= c <= 'Z' }
  predicate IsLower(c: char) { 'a' <= c <= 'z' }

  function ToUpper(c: char): (r: char)
    ensures !IsLower(r)
    ensures IsLower(c) ==> IsUpper(r)
    ensures !IsLower(c) ==> r == c
  {
    if IsLower(c) then (c as int - 'a' as int + 'A' as int) as char else c
  }

  function ToLower(c: char): (r: char)
    ensures !IsUpper(r)
    ensures IsUpper(c) ==> IsLower(r)
    ensures !IsUpper(c) ==> r == c
  {
    if IsUpper(c) then (c as int - 'A' as int + 'a' as int) as char else c
  }

  lemma CaseRoundTrip(c: char)
    ensures IsUpper(c) ==> ToUpper(ToLower(c)) == c
    ensures IsLower(c) ==> ToLower(ToUpper(c)) == c
  {
  }

  predicate HasNoUpper(s: string) {
    forall i :: 0 <= i < |s| ==> !IsUpper(s[i])
  }

  /**
   * Each upper-case letter starts a new word: `firstName` becomes `first_name`.
   * (The tail is written `s[1..|s|]` so that the verifier does not unfold the function on every
   * string literal it meets; the lemmas below say what it computes.)
   */
  function CamelToSnake(s: string): (r: string)
    ensures |s| <= |r| <= 2 * |s|
    decreases |s|
  {
    if s == [] then []
    else (if IsUpper(s[0]) then ['_', ToLower(s[0])] else [s[0]]) + CamelToSnake(s[1..|s|])
  }

  /** One step of `CamelToSnake`, with the tail as `s[1..]`. */
  lemma CamelToSnakeStep(s: string)
    requires s != []
    ensures CamelToSnake(s) == (if IsUpper(s[0]) then ['_', ToLower(s[0])] else [s[0]]) + CamelToSnake(s[1..])
  {
    assert s[1..|s|] == s[1..];
  }

  /** Snake names carry no upper-case letter. */
  lemma {:induction false} CamelToSnakeHasNoUpper(s: string)
    ensures HasNoUpper(CamelToSnake(s))
  {
    if s != [] {
      CamelToSnakeStep(s);
      CamelToSnakeHasNoUpper(s[1..]);
    }
  }

  /** A single lower-case word (`age`, `name`) is its own snake form. */
  lemma {:induction false} CamelToSnakeKeepsLowerWord(s: string)
    requires HasNoUpper(s)
    ensures CamelToSnake(s) == s
  {
    if s != [] {
      CamelToSnakeStep(s);
      CamelToSnakeKeepsLowerWord(s[1..]);
    }
  }

  /** Renaming works word by word: the snake form of a concatenation is the concatenation of the snake forms. */
  lemma {:induction false} CamelToSnakeAppend(a: string, b: string)
    ensures CamelToSnake(a + b) == CamelToSnake(a) + CamelToSnake(b)
  {
    if a == [] {
      assert a + b == b;
    } else {
      assert (a + b)[0] == a[0];
      assert (a + b)[1..] == a[1..] + b;
      CamelToSnakeStep(a);
      CamelToSnakeStep(a + b);
      CamelToSnakeAppend(a[1..], b);
      var head := if IsUpper(a[0]) then ['_', ToLower(a[0])] else [a[0]];
      assert CamelToSnake(a + b) == head + (CamelToSnake(a[1..]) + CamelToSnake(b));
      assert head + (CamelToSnake(a[1..]) + CamelToSnake(b)) == (head + CamelToSnake(a[1..])) + CamelToSnake(b);
    }
  }

  /** A capitalised word (`Name`) becomes an underscore and the word in lower case (`_name`). */
  lemma CamelToSnakeCapitalisedWord(w: string)
    requires w != [] && IsUpper(w[0]) && HasNoUpper(w[1..])
    ensures CamelToSnake(w) == ['_', ToLower(w[0])] + w[1..]
  {
    CamelToSnakeStep(w);
    CamelToSnakeKeepsLowerWord(w[1..]);
  }

  /** Every underscore of a snake name written from a camel name opens a lower-case word. */
  lemma {:induction false} CamelToSnakeJoinsWords(s: string)
    requires '_' !in s
    ensures UnderscoresJoinWords(CamelToSnake(s))
  {
    if s != [] {
      CamelToSnakeStep(s);
      CamelToSnakeJoinsWords(s[1..]);
      var head := if IsUpper(s[0]) then ['_', ToLower(s[0])] else [s[0]];
      var rest := CamelToSnake(s[1..]);
      assert CamelToSnake(s) == head + rest;
      forall i | 0 <= i < |head + rest| && (head + rest)[i] == '_'
        ensures i + 1 < |head + rest| && IsLower((head + rest)[i + 1])
      {
        if i >= |head| {
          assert (head + rest)[i] == rest[i - |head|];
        }
      }
    }
  }

  /** An underscore before a lower-case letter joins the words: `first_name` becomes `firstName`. */
  function SnakeToCamel(s: string): (r: string)
    ensures |r| <= |s|
    ensures '_' !in s ==> r == s
    decreases |s|
  {
    if s == [] then []
    else if |s| >= 2 && s[0] == '_' && IsLower(s[1]) then [ToUpper(s[1])] + SnakeToCamel(s[2..|s|])
    else [s[0]] + SnakeToCamel(s[1..|s|])
  }

  /** One step of `SnakeToCamel`, with the tail as `s[1..]` or `s[2..]`. */
  lemma SnakeToCamelStep(s: string)
    requires s != []
    ensures SnakeToCamel(s) ==
      if |s| >= 2 && s[0] == '_' && IsLower(s[1]) then [ToUpper(s[1])] + SnakeToCamel(s[2..])
      else [s[0]] + SnakeToCamel(s[1..])
  {
    assert s[1..|s|] == s[1..];
    if |s| >= 2 {
      assert s[2..|s|] == s[2..];
    }
  }

  /** The first letter is capitalised: `firstName` becomes `FirstName`. */
  function CamelToPascal(s: string): (r: string)
    ensures |r| == |s|
    ensures r != [] ==> !IsLower(r[0])
    ensures s != [] ==> r[0] == ToUpper(s[0])
    ensures |s| > 0 ==> r[1..] == s[1..]
  {
    if s == [] then [] else [ToUpper(s[0])] + s[1..]
  }

  /** The first letter is lowered: `FirstName` becomes `firstName`. */
  function PascalToCamel(s: string): (r: string)
    ensures |r| == |s|
    ensures r != [] ==> !IsUpper(r[0])
    ensures s != [] ==> r[0] == ToLower(s[0])
    ensures |s| > 0 ==> r[1..] == s[1..]
  {
    if s == [] then [] else [ToLower(s[0])] + s[1..]
  }

  function ToCamel(s: string, style: CaseStyle): string {
    match style
    case Camel => s
    case Snake => SnakeToCamel(s)
    case Pascal => PascalToCamel(s)
  }

  function FromCamel(s: string, style: CaseStyle): string {
    match style
    case Camel => s
    case Snake => CamelToSnake(s)
    case Pascal => CamelToPascal(s)
  }

  /** A camel-case name has nothing for any style's reader to change: it reads as itself. */
  lemma CamelReadsAsItself(name: string, style: CaseStyle)
    requires WellFormed(name, Camel)
    ensures ToCamel(name, style) == name
  {
    if style == Pascal && name != [] {
      assert PascalToCamel(name) == [name[0]] + name[1..];
    }
  }

  /** Renames `name` from style `source` to style `target`; a name is left alone when the two agree. */
  function Convert(name: string, source: CaseStyle, target: CaseStyle): (r: string)
    ensures source == target ==> r == name
    ensures source != target ==> r == FromCamel(ToCamel(name, source), target)
  {
    if source == target then name else FromCamel(ToCamel(name, source), target)
  }

  /** A camel-case name is written straight in the target style, whatever the source style says. */
  lemma ConvertCamelName(name: string, source: CaseStyle, target: CaseStyle)
    requires WellFormed(name, Camel) && source != target
    ensures Convert(name, source, target) == FromCamel(name, target)
  {
    CamelReadsAsItself(name, source);
  }

  /** The names a style can carry back and forth without loss. */
  predicate WellFormed(name: string, style: CaseStyle) {
    match style
    case Camel => '_' !in name && (name == [] || !IsUpper(name[0]))
    case Pascal => '_' !in name && (name == [] || !IsLower(name[0]))
    case Snake => HasNoUpper(name) && (name == [] || name[0] != '_') && UnderscoresJoinWords(name)
  }

  /** Every underscore is followed by the lower-case letter that starts the next word. */
  predicate UnderscoresJoinWords(s: string) {
    forall i :: 0 <= i < |s| && s[i] == '_' ==> i + 1 < |s| && IsLower(s[i + 1])
  }

  lemma {:induction false} SnakeToCamelRemovesUnderscores(s: string)
    requires UnderscoresJoinWords(s)
    ensures '_' !in SnakeToCamel(s)
  {
    if s != [] {
      SnakeToCamelStep(s);
      if |s| >= 2 && s[0] == '_' && IsLower(s[1]) {
        assert UnderscoresJoinWords(s[2..]) by {
          forall i | 0 <= i < |s[2..]| && s[2..][i] == '_' ensures i + 1 < |s[2..]| && IsLower(s[2..][i + 1]) {
            assert s[i + 2] == '_';
          }
        }
        SnakeToCamelRemovesUnderscores(s[2..]);
      } else {
        assert UnderscoresJoinWords(s[1..]) by {
          forall i | 0 <= i < |s[1..]| && s[1..][i] == '_' ensures i + 1 < |s[1..]| && IsLower(s[1..][i + 1]) {
            assert s[i + 1] == '_';
          }
        }
        SnakeToCamelRemovesUnderscores(s[1..]);
      }
    }
  }

  lemma {:induction false} SnakeToCamelToSnake(s: string)
    requires HasNoUpper(s)
    ensures CamelToSnake(SnakeToCamel(s)) == s
  {
    if s == [] {
    } else if |s| >= 2 && s[0] == '_' && IsLower(s[1]) {
      SnakeToCamelStep(s);
      SnakeToCamelToSnake(s[2..]);
      CaseRoundTrip(s[1]);
      CamelToSnakeStep(SnakeToCamel(s));
      assert SnakeToCamel(s) == [ToUpper(s[1])] + SnakeToCamel(s[2..]);
      assert ([ToUpper(s[1])] + SnakeToCamel(s[2..]))[1..] == SnakeToCamel(s[2..]);
      assert s == ['_', s[1]] + s[2..];
    } else {
      SnakeToCamelStep(s);
      SnakeToCamelToSnake(s[1..]);
      CamelToSnakeStep(SnakeToCamel(s));
      assert ([s[0]] + SnakeToCamel(s[1..]))[1..] == SnakeToCamel(s[1..]);
    }
  }

  lemma {:induction false} CamelToSnakeToCamel(s: string)
    requires '_' !in s
    ensures SnakeToCamel(CamelToSnake(s)) == s
  {
    if s != [] {
      CamelToSnakeStep(s);
      CamelToSnakeToCamel(s[1..]);
      var rest := CamelToSnake(s[1..]);
      if IsUpper(s[0]) {
        CaseRoundTrip(s[0]);
        SnakeToCamelStep(['_', ToLower(s[0])] + rest);
        assert (['_', ToLower(s[0])] + rest)[2..] == rest;
      } else {
        assert s[0] != '_';
        SnakeToCamelStep([s[0]] + rest);
        assert ([s[0]] + rest)[1..] == rest;
      }
    }
  }

  /** The first character of a snake name survives the trip to camel case unless it opens `_x`. */
  lemma SnakeToCamelHead(s: string)
    requires s != [] && s[0] != '_'
    ensures SnakeToCamel(s) != [] && SnakeToCamel(s)[0] == s[0]
  {
    SnakeToCamelStep(s);
  }

  /** Reading a well-formed name into camel case gives a well-formed camel name, and writing it back restores it. */
  lemma ToCamelAndBack(name: string, style: CaseStyle)
    requires WellFormed(name, style)
    ensures WellFormed(ToCamel(name, style), Camel)
    ensures FromCamel(ToCamel(name, style), style) == name
  {
    match style {
      case Camel =>
      case Pascal =>
        if name != [] {
          CaseRoundTrip(name[0]);
          assert CamelToPascal(PascalToCamel(name)) == [name[0]] + name[1..];
        }
      case Snake =>
        SnakeToCamelToSnake(name);
        if name != [] { SnakeToCamelHead(name); }
        SnakeToCamelRemovesUnderscores(name);
    }
  }

  /** Writing a well-formed camel name in any style and reading it back restores it. */
  lemma FromCamelAndBack(camel: string, style: CaseStyle)
    requires WellFormed(camel, Camel)
    ensures ToCamel(FromCamel(camel, style), style) == camel
  {
    match style {
      case Camel =>
      case Snake => CamelToSnakeToCamel(camel);
      case Pascal =>
        if camel != [] {
          CaseRoundTrip(camel[0]);
          assert PascalToCamel(CamelToPascal(camel)) == [camel[0]] + camel[1..];
        }
    }
  }

  /**
   * A well-formed name converted to any style and back again is the name itself, for every pair of
   * styles (no acronyms: a well-formed name never holds two words that merge or split differently).
   */
  lemma ConvertRoundTrip(name: string, source: CaseStyle, target: CaseStyle)
    requires WellFormed(name, source)
    ensures Convert(Convert(name, source, target), target, source) == name
  {
    if source != target {
      ToCamelAndBack(name, source);
      FromCamelAndBack(ToCamel(name, source), target);
    }
  }

  /** Distinct well-formed names never collide after conversion. */
  lemma ConvertInjective(a: string, b: string, source: CaseStyle, target: CaseStyle)
    requires WellFormed(a, source) && WellFormed(b, source)
    requires Convert(a, source, target) == Convert(b, source, target)
    ensures a == b
  {
    ConvertRoundTrip(a, source, target);
    ConvertRoundTrip(b, source, target);
  }

  /** A well-formed name converted to another style is well-formed in that style. */
  lemma ConvertLandsInTarget(name: string, source: CaseStyle, target: CaseStyle)
    requires WellFormed(name, source)
    ensures WellFormed(Convert(name, source, target), target)
  {
    if source != target {
      ToCamelAndBack(name, source);
      var camel := ToCamel(name, source);
      match target {
        case Camel =>
        case Pascal =>
        case Snake =>
          CamelToSnakeHasNoUpper(camel);
          CamelToSnakeJoinsWords(camel);
          if camel != [] {
            assert CamelToSnake(camel)[0] == camel[0];
          }
      }
    }
  }
}

=== FILE: collections.dfy ===
/** Swift's `compactMap` over arrays: keep, in order, the results that are not nil. */
module Collections {
  import opened Wrappers

  /** `s.compactMap(f)` */
  function CompactMap<A, B>(s: seq<A>, f: A -> Option<B>): (r: seq<B>)
    ensures |r| <= |s|
  {
    if s == [] then []
    else
      var rest := CompactMap(s[1..], f);
      match f(s[0])
      case Some(b) => [b] + rest
      case None => rest
  }

  /** How many elements of `s` map to nil under `f`. */
  function NoneCount<A, B>(s: seq<A>, f: A -> Option<B>): nat {
    if s == [] then 0
    else (if f(s[0]).None? then 1 else 0) + NoneCount(s[1..], f)
  }

  /** Strictly increasing indices into a sequence of length `n`. */
  ghost predicate IncreasingIndices(idx: seq<nat>, n: nat) {
    (forall j :: 0 <= j < |idx| ==> idx[j] < n)
    && (forall j, k :: 0 <= j < k < |idx| ==> idx[j] < idx[k])
  }

  /** `compactMap` distributes over concatenation. */
  lemma {:induction false} CompactMapAppend<A, B>(a: seq<A>, b: seq<A>, f: A -> Option<B>)
    ensures CompactMap(a + b, f) == CompactMap(a, f) + CompactMap(b, f)
  {
    if a == [] {
      assert a + b == b;
    } else {
      assert (a + b)[1..] == a[1..] + b;
      assert (a + b)[0] == a[0];
      CompactMapAppend(a[1..], b, f);
    }
  }

  /** Exactly the elements that map to nil are dropped. */
  lemma {:induction false} CompactMapLength<A, B>(s: seq<A>, f: A -> Option<B>)
    ensures |CompactMap(s, f)| == |s| - NoneCount(s, f)
  {
    if s != [] {
      CompactMapLength(s[1..], f);
    }
  }

  /** When no element maps to nil, every element is kept, at its own position. */
  lemma {:induction false} CompactMapAllSome<A, B>(s: seq<A>, f: A -> Option<B>)
    requires forall i :: 0 <= i < |s| ==> f(s[i]).Some?
    ensures |CompactMap(s, f)| == |s|
    ensures forall i :: 0 <= i < |s| ==> f(s[i]) == Some(CompactMap(s, f)[i])
  {
    if s != [] {
      CompactMapAllSome(s[1..], f);
      var rest := CompactMap(s[1..], f);
      assert CompactMap(s, f) == [f(s[0]).value] + rest;
      forall i | 1 <= i < |s|
        ensures f(s[i]) == Some(CompactMap(s, f)[i])
      {
        assert s[i] == s[1..][i - 1];
      }
    }
  }

  /** Exactly one element mapping to nil costs exactly one element of the result. */
  lemma CompactMapOneNone<A, B>(s: seq<A>, f: A -> Option<B>, bad: nat)
    requires bad < |s|
    requires forall i :: 0 <= i < |s| ==> (f(s[i]).None? <==> i == bad)
    ensures |CompactMap(s, f)| == |s| - 1
  {
    var before, after := s[..bad], s[bad + 1..];
    assert s == before + [s[bad]] + after;
    forall i | 0 <= i < |before| ensures f(before[i]).Some? { assert before[i] == s[i]; }
    forall i | 0 <= i < |after| ensures f(after[i]).Some? { assert after[i] == s[bad + 1 + i]; }
    CompactMapAllSome(before, f);
    CompactMapAllSome(after, f);
    CompactMapAppend(before + [s[bad]], after, f);
    CompactMapAppend(before, [s[bad]], f);
    assert CompactMap([s[bad]], f) == [];
  }

  /** Two sequences whose elements map to the same results, position by position, compact to the same result. */
  lemma {:induction false} CompactMapPointwise<A, C, B>(s: seq<A>, f: A -> Option<B>, t: seq<C>, g: C -> Option<B>)
    requires |s| == |t|
    requires forall i :: 0 <= i < |s| ==> f(s[i]) == g(t[i])
    ensures CompactMap(s, f) == CompactMap(t, g)
  {
    if s != [] {
      forall i | 0 <= i < |s[1..]| ensures f(s[1..][i]) == g(t[1..][i]) {
        assert s[1..][i] == s[i + 1] && t[1..][i] == t[i + 1];
      }
      CompactMapPointwise(s[1..], f, t[1..], g);
    }
  }

  /** Adding one to each index of an increasing list, e.g. after dropping a first element. */
  lemma ShiftIndices(idx: seq<nat>, n: nat) returns (shifted: seq<nat>)
    requires IncreasingIndices(idx, n)
    ensures |shifted| == |idx|
    ensures IncreasingIndices(shifted, n + 1)
    ensures forall j :: 0 <= j < |idx| ==> shifted[j] == idx[j] + 1
    ensures 0 !in shifted
    ensures forall i :: 1 <= i <= n ==> (i in shifted <==> i - 1 in idx)
  {
    shifted := seq(|idx|, j requires 0 <= j < |idx| => idx[j] + 1);
    forall i | 1 <= i <= n
      ensures i in shifted <==> i - 1 in idx
    {
      if i - 1 in idx {
        var j :| 0 <= j < |idx| && idx[j] == i - 1;
        assert shifted[j] == i;
      }
    }
  }

  /**
   * The result of `compactMap` is the in-order subsequence of the images that are not nil:
   * there are strictly increasing indices `idx` picking the kept elements, and an index is
   * picked exactly when its element maps to a value.
   */
  lemma {:induction false} CompactMapIsOrderedSubsequence<A, B>(s: seq<A>, f: A -> Option<B>)
    returns (idx: seq<nat>)
    ensures |idx| == |CompactMap(s, f)|
    ensures IncreasingIndices(idx, |s|)
    ensures forall j :: 0 <= j < |idx| ==> f(s[idx[j]]) == Some(CompactMap(s, f)[j])
    ensures forall i :: 0 <= i < |s| ==> (f(s[i]).Some? <==> i in idx)
  {
    if s == [] {
      idx := [];
    } else {
      var tail := s[1..];
      var rest := CompactMapIsOrderedSubsequence(tail, f);
      var shifted := ShiftIndices(rest, |tail|);
      forall j | 0 <= j < |rest|
        ensures f(s[shifted[j]]) == Some(CompactMap(tail, f)[j])
      {
        assert s[shifted[j]] == tail[rest[j]];
      }
      forall i | 1 <= i < |s|
        ensures f(s[i]).Some? <==> i in shifted
      {
        assert s[i] == tail[i - 1];
      }
      if f(s[0]).Some? {
        idx := [0] + shifted;
        assert CompactMap(s, f) == [f(s[0]).value] + CompactMap(tail, f);
      } else {
        idx := shifted;
        assert CompactMap(s, f) == CompactMap(tail, f);
      }
    }
  }
}

=== FILE: dispatch.dfy ===
/**
 * The batch rule shared by the queue and notification handlers (`handle(data:eventLoopGroup:)`):
 * parse each raw record, drop the malformed ones, call the user's handler with the rest, and
 * answer the host with an empty dictionary. The event loop and its futures are replaced by
 * values: the handler is a function from the delivered records to its outcome.
 */
module Dispatch {
  import opened Wrappers
  import opened Json
  import opened Collections

  /** What the user's handler future resolves to. */
  datatype HandlerOutcome = Done | Failed(error: string)

  /** What the future returned to the host resolves to. */
  datatype Completion = Succeeded(response: Object) | Propagated(error: string)

  /** One invocation: the records handed to the handler (None: it was not called) and the completion. */
  datatype Invocation<R> = Invocation(delivered: Option<seq<R>>, completion: Completion)

  /** `data["Records"] as? [[String: Any]]` */
  function RawRecords(data: Object): Option<seq<Object>> {
    AsObjectArray(Get(data, "Records"))
  }

  function Handle<R>(data: Object, parse: Object -> Option<R>, handler: seq<R> -> HandlerOutcome): (r: Invocation<R>)
    ensures RawRecords(data).None? ==> r == Invocation(None, Succeeded(map[]))
    ensures RawRecords(data).Some? ==> r.delivered == Some(CompactMap(RawRecords(data).value, parse))
    ensures r.completion.Succeeded? ==> r.completion.response == map[]
    ensures r.delivered.Some? ==> (r.completion.Succeeded? <==> handler(r.delivered.value).Done?)
    ensures r.completion.Propagated? ==> r.delivered.Some? && handler(r.delivered.value) == Failed(r.completion.error)
  {
    match RawRecords(data)
    case None => Invocation(None, Succeeded(map[]))
    case Some(raw) =>
      var records := CompactMap(raw, parse);
      match handler(records)
      case Done => Invocation(Some(records), Succeeded(map[]))
      case Failed(e) => Invocation(Some(records), Propagated(e))
  }

  /**
   * The records handed on are the raw records that parse, in delivery order: an increasing
   * choice of raw positions, a position being chosen exactly when its record parses.
   */
  lemma HandleDeliversParsedInOrder<R>(data: Object, parse: Object -> Option<R>, handler: seq<R> -> HandlerOutcome)
    returns (idx: seq<nat>)
    requires RawRecords(data).Some?
    ensures var raw := RawRecords(data).value;
      var delivered := Handle(data, parse, handler).delivered.value;
      && |idx| == |delivered| <= |raw|
      && IncreasingIndices(idx, |raw|)
      && (forall j :: 0 <= j < |idx| ==> parse(raw[idx[j]]) == Some(delivered[j]))
      && (forall i :: 0 <= i < |raw| ==> (parse(raw[i]).Some? <==> i in idx))
  {
    idx := CompactMapIsOrderedSubsequence(RawRecords(data).value, parse);
  }

  /** Exactly the malformed records are lost: with N raw records of which k are malformed, N - k are delivered. */
  lemma HandleDropsOnlyMalformed<R>(data: Object, parse: Object -> Option<R>, handler: seq<R> -> HandlerOutcome)
    requires RawRecords(data).Some?
    ensures |Handle(data, parse, handler).delivered.value| == |RawRecords(data).value| - NoneCount(RawRecords(data).value, parse)
  {
    CompactMapLength(RawRecords(data).value, parse);
  }

  /** A batch whose records all parse is delivered whole, each record at its own position. */
  lemma HandleDeliversWellFormedBatch<R>(data: Object, parse: Object -> Option<R>, handler: seq<R> -> HandlerOutcome)
    requires RawRecords(data).Some?
    requires forall i :: 0 <= i < |RawRecords(data).value| ==> parse(RawRecords(data).value[i]).Some?
    ensures var raw := RawRecords(data).value;
      var delivered := Handle(data, parse, handler).delivered.value;
      |delivered| == |raw| && forall i :: 0 <= i < |raw| ==> parse(raw[i]) == Some(delivered[i])
  {
    CompactMapAllSome(RawRecords(data).value, parse);
  }

  /** Exactly one malformed record among N object records gives N - 1 delivered records. */
  lemma OneMalformedRecordDropped<R>(data: Object, parse: Object -> Option<R>, handler: seq<R> -> HandlerOutcome, bad: nat)
    requires RawRecords(data).Some? && bad < |RawRecords(data).value|
    requires forall i :: 0 <= i < |RawRecords(data).value| ==> (parse(RawRecords(data).value[i]).None? <==> i == bad)
    ensures |Handle(data, parse, handler).delivered.value| == |RawRecords(data).value| - 1
  {
    CompactMapOneNone(RawRecords(data).value, parse, bad);
  }

  // The cast of the whole `Records` array to an array of objects fails on a single entry that
  // is not an object, and then no record of the batch is delivered. The rule below casts each
  // entry on its own, so that such an entry is dropped like any other malformed record.

  /** `data["Records"] as? [Any]`: the entries of the `Records` array, whatever they hold. */
  function RecordEntries(data: Object): (r: Option<seq<Json>>)
    ensures r.Some? <==> "Records" in data && data["Records"].JArray?
    ensures r.Some? ==> r.value == data["Records"].items
  {
    match Get(data, "Records")
    case Some(JArray(items)) => Some(items)
    case _ => None
  }

  /** An entry is parsed when it is an object; any other entry is a malformed record. */
  function EntryParser<R>(parse: Object -> Option<R>): Json -> Option<R> {
    (entry: Json) => if entry.JObject? then parse(entry.fields) else None
  }

  /** The batch rule with the cast to an object applied record by record. */
  function HandleEachRecord<R>(data: Object, parse: Object -> Option<R>, handler: seq<R> -> HandlerOutcome): (r: Invocation<R>)
    ensures RecordEntries(data).None? ==> r == Invocation(None, Succeeded(map[]))
    ensures RecordEntries(data).Some? ==> r.delivered == Some(CompactMap(RecordEntries(data).value, EntryParser(parse)))
    ensures r.delivered.Some? ==>
      r.completion == match handler(r.delivered.value)
        case Done => Succeeded(map[])
        case Failed(e) => Propagated(e)
  {
    match RecordEntries(data)
    case None => Invocation(None, Succeeded(map[]))
    case Some(entries) =>
      var records := CompactMap(entries, EntryParser(parse));
      match handler(records)
      case Done => Invocation(Some(records), Succeeded(map[]))
      case Failed(e) => Invocation(Some(records), Propagated(e))
  }

  /** On a `Records` array of objects, casting record by record changes nothing. */
  lemma HandleEachRecordAgreesOnObjects<R>(data: Object, parse: Object -> Option<R>, handler: seq<R> -> HandlerOutcome)
    requires RawRecords(data).Some?
    ensures HandleEachRecord(data, parse, handler) == Handle(data, parse, handler)
  {
    var entries := RecordEntries(data).value;
    var raw := RawRecords(data).value;
    forall i | 0 <= i < |entries| ensures EntryParser(parse)(entries[i]) == parse(raw[i]) {
      assert entries[i] == JObject(raw[i]);
    }
    CompactMapPointwise(entries, EntryParser(parse), raw, parse);
  }

  /**
   * As written: one entry that is not an object (here `null`) beside a record that parses, and
   * the handler is never called. Cast record by record, the good record is delivered.
   */
  lemma NonObjectEntryDropsBatch<R>(good: Object, parse: Object -> Option<R>, handler: seq<R> -> HandlerOutcome)
    requires parse(good).Some?
    ensures var data := map["Records" := JArray([JObject(good), JNull])];
      && Handle(data, parse, handler) == Invocation(None, Succeeded(map[]))
      && HandleEachRecord(data, parse, handler).delivered == Some([parse(good).value])
  {
    var data := map["Records" := JArray([JObject(good), JNull])];
    var entries := [JObject(good), JNull];
    assert AllObjects(entries).None?;
    assert RecordEntries(data) == Some(entries);
    assert EntryParser(parse)(entries[0]) == parse(good);
    assert EntryParser(parse)(entries[1]) == None;
    assert CompactMap(entries[1..], EntryParser(parse)) == [];
    assert CompactMap(entries, EntryParser(parse)) == [parse(good).value];
  }

  /** Cast record by record, exactly one malformed entry among N, object or not, gives N - 1 delivered records. */
  lemma OneMalformedEntryDropped<R>(data: Object, parse: Object -> Option<R>, handler: seq<R> -> HandlerOutcome, bad: nat)
    requires RecordEntries(data).Some? && bad < |RecordEntries(data).value|
    requires forall i :: 0 <= i < |RecordEntries(data).value| ==>
      (EntryParser(parse)(RecordEntries(data).value[i]).None? <==> i == bad)
    ensures |HandleEachRecord(data, parse, handler).delivered.value| == |RecordEntries(data).value| - 1
  {
    CompactMapOneNone(RecordEntries(data).value, EntryParser(parse), bad);
  }
}

=== FILE: foundation.dfy ===
/**
 * The Foundation values and parsers the event parsers rely on. The parsers are library code
 * whose behaviour is not modelled: every parser is a parameter, an arbitrary partial function
 * from text to a value, and every property below holds whichever functions are supplied.
 */
module Foundation {
  import opened Wrappers

  /** `Data`: a byte buffer. */
  type Data = seq<bv8>

  /** `Date`: a point in time, counted in seconds since 1 January 1970 (exact, not floating point). */
  datatype Date = Date(timeIntervalSince1970: real)

  datatype Parsers = Parsers(
    /** `Data(base64URLEncoded:options:)` */
    base64URL: string -> Option<Data>,
    /** `Decimal(string:)` */
    decimal: string -> Option<real>,
    /** `Int(_:)` on a string; whether it enforces the 64-bit range is up to the parser passed in */
    integer: string -> Option<int>,
    /** `TimeInterval(_:)` (a `Double`) on a string */
    timeInterval: string -> Option<real>,
    /** `date(from:)` of a `DateFormatter` whose `dateFormat` is the first argument */
    date: (string, string) -> Option<Date>)
}

=== FILE: json.dfy ===
/**
 * The untyped key/value tree a Lambda event arrives as (`[String: Any]` after JSON
 * deserialisation), and the conditional casts (`as?`) the event parsers apply to it.
 */
module Json {
  import opened Wrappers

  datatype Json =
    | JString(str: string)
    | JNumber(num: real)
    | JBool(b: bool)
    | JNull
    | JArray(items: seq<Json>)
    | JObject(fields: map<string, Json>)

  /** A dictionary `[String: Any]`. */
  type Object = map<string, Json>

  /** Subscript `dict[key]`: nil when the key is absent. */
  function Get(dict: Object, key: string): (r: Option<Json>)
    ensures r.Some? <==> key in dict
    ensures r.Some? ==> r.value == dict[key]
  {
    if key in dict then Some(dict[key]) else None
  }

  /** `v as? String` */
  function AsString(v: Option<Json>): (r: Option<string>)
    ensures r.Some? <==> v.Some? && v.value.JString?
    ensures r.Some? ==> r.value == v.value.str
  {
    match v
    case Some(JString(s)) => Some(s)
    case _ => None
  }

  /** `v as? [String: Any]` */
  function AsObject(v: Option<Json>): (r: Option<Object>)
    ensures r.Some? <==> v.Some? && v.value.JObject?
    ensures r.Some? ==> r.value == v.value.fields
  {
    match v
    case Some(JObject(m)) => Some(m)
    case _ => None
  }

  /** `dict[key] as? String`, the most common lookup of the event parsers. */
  function StringAt(dict: Object, key: string): (r: Option<string>)
    ensures r.Some? <==> key in dict && dict[key].JString?
    ensures r.Some? ==> r.value == dict[key].str
  {
    AsString(Get(dict, key))
  }

  /** Bridging an array to `[String]` succeeds only when every element is a string. */
  function AllStrings(items: seq<Json>): (r: Option<seq<string>>)
    ensures r.Some? <==> forall i :: 0 <= i < |items| ==> items[i].JString?
    ensures r.Some? ==> |r.value| == |items|
    ensures r.Some? ==> forall i :: 0 <= i < |items| ==> r.value[i] == items[i].str
  {
    if items == [] then Some([])
    else match (items[0], AllStrings(items[1..]))
      case (JString(s), Some(rest)) => Some([s] + rest)
      case _ => None
  }

  /** Bridging an array to `[[String: Any]]` succeeds only when every element is an object. */
  function AllObjects(items: seq<Json>): (r: Option<seq<Object>>)
    ensures r.Some? <==> forall i :: 0 <= i < |items| ==> items[i].JObject?
    ensures r.Some? ==> |r.value| == |items|
    ensures r.Some? ==> forall i :: 0 <= i < |items| ==> r.value[i] == items[i].fields
  {
    if items == [] then Some([])
    else match (items[0], AllObjects(items[1..]))
      case (JObject(m), Some(rest)) => Some([m] + rest)
      case _ => None
  }

  /** `v as? [String]` */
  function AsStringArray(v: Option<Json>): (r: Option<seq<string>>)
    ensures r.Some? <==> v.Some? && v.value.JArray? && AllStrings(v.value.items).Some?
    ensures r.Some? ==> |r.value| == |v.value.items|
    ensures r.Some? ==> forall i :: 0 <= i < |r.value| ==> r.value[i] == v.value.items[i].str
  {
    match v
    case Some(JArray(items)) => AllStrings(items)
    case _ => None
  }

  /** `v as? [[String: Any]]` */
  function AsObjectArray(v: Option<Json>): (r: Option<seq<Object>>)
    ensures r.Some? <==> v.Some? && v.value.JArray? && AllObjects(v.value.items).Some?
    ensures r.Some? ==> |r.value| == |v.value.items|
    ensures r.Some? ==> forall i :: 0 <= i < |r.value| ==> r.value[i] == v.value.items[i].fields
  {
    match v
    case Some(JArray(items)) => AllObjects(items)
    case _ => None
  }

  /** `v as? [String: [String: Any]]`: succeeds only when every value is itself an object. */
  function AsObjectOfObjects(v: Option<Json>): (r: Option<map<string, Object>>)
    ensures r.Some? <==> v.Some? && v.value.JObject? && forall k :: k in v.value.fields ==> v.value.fields[k].JObject?
    ensures r.Some? ==> r.value.Keys == v.value.fields.Keys
    ensures r.Some? ==> forall k :: k in r.value ==> r.value[k] == v.value.fields[k].fields
  {
    match v
    case Some(JObject(m)) =>
      if forall k :: k in m ==> m[k].JObject? then Some(map k | k in m :: m[k].fields) else None
    case _ => None
  }
}

=== FILE: person.dfy ===
/**
 * The `Person` record of Tests/Dynamo/DynamoCodingTests.swift and its tagged encoding, with the
 * field-name renaming of the case settings applied to every key at every depth.
 */
module PersonCodec {
  import opened Wrappers
  import opened Casing
  import opened Tagged

  /** Swift's `Int` on a 64-bit platform. */
  newtype Int64 = x: int | -0x8000_0000_0000_0000 <= x < 0x8000_0000_0000_0000

  /** `enum Severity: String`: encoded by its raw value. */
  datatype Severity = Low | Medium | High

  datatype Allergy = Allergy(name: string, category: string, severity: Severity)

  /** `enum Animal`: coded by hand as a record with one `rawValue` field. */
  datatype Animal = Dog | Cat | Other(name: string)

  datatype Person = Person(
    firstName: string,
    lastName: string,
    age: Int64,
    favoriteAnimal: Animal,
    secondFavoriteAnimal: Option<Animal>,
    thirdFavoriteAnimal: Option<Animal>,
    allergies: seq<Allergy>)

  /** The record's own `==`, which does not compare `thirdFavoriteAnimal`. */
  predicate Equivalent(a: Person, b: Person)
    ensures Equivalent(a, b) <==> a.(thirdFavoriteAnimal := None) == b.(thirdFavoriteAnimal := None)
  {
    && a.age == b.age
    && a.firstName == b.firstName
    && a.lastName == b.lastName
    && a.favoriteAnimal == b.favoriteAnimal
    && a.secondFavoriteAnimal == b.secondFavoriteAnimal
    && a.allergies == b.allergies
  }

  datatype CodecError =
    | MissingRequiredField(key: string)   // a non-optional field is absent
    | TypeMismatch(key: string)           // the field holds the wrong tag, or text that is not the expected value
    | UnknownVariant(raw: string)         // a raw string matching no case of a raw-value enum

  // ---------------------------------------------------------------- field names

  /** The wire key of a native field name under the case settings. */
  function Key(name: string, cs: CaseSettings): string {
    Convert(name, cs.source, cs.target)
  }

  /** The native field names of each record of the schema, all in camel case. */
  const PersonFields: seq<string> := ["firstName", "lastName", "age", "favoriteAnimal", "allergies",
    "secondFavoriteAnimal", "thirdFavoriteAnimal"]
  const AnimalFields: seq<string> := ["rawValue"]
  const AllergyFields: seq<string> := ["name", "category", "severity"]

  /** No name occurs twice. */
  ghost predicate Distinct(names: seq<string>) {
    forall i, j :: 0 <= i < j < |names| ==> names[i] != names[j]
  }

  /** Each name renamed. */
  function RenameAll(names: seq<string>, rename: string -> string): (r: seq<string>)
    ensures |r| == |names|
    ensures forall i :: 0 <= i < |names| ==> r[i] == rename(names[i])
  {
    seq(|names|, i requires 0 <= i < |names| => rename(names[i]))
  }

  // ---------------------------------------------------------------- leaves

  function SeverityRawValue(s: Severity): string {
    match s
    case Low => "low"
    case Medium => "medium"
    case High => "high"
  }

  /** `Severity(rawValue:)` */
  function SeverityFromRawValue(raw: string): (r: Option<Severity>)
    ensures r.Some? <==> raw in {"low", "medium", "high"}
    ensures r.Some? ==> SeverityRawValue(r.value) == raw
  {
    if raw == "low" then Some(Low)
    else if raw == "medium" then Some(Medium)
    else if raw == "high" then Some(High)
    else None
  }

  /** The string the hand-written coding stores under `rawValue`. */
  function AnimalRawValue(a: Animal): string {
    match a
    case Dog => "dog"
    case Cat => "cat"
    case Other(name) => name
  }

  /** The hand-written `init(from:)`: "dog" and "cat" name their cases, any other string is `other`. */
  function AnimalFromRawValue(raw: string): (r: Animal)
    ensures AnimalRawValue(r) == raw
    ensures CanonicalAnimal(r)
  {
    if raw == "dog" then Dog else if raw == "cat" then Cat else Other(raw)
  }

  /** Animals whose `other` name does not spell one of the named cases. */
  predicate CanonicalAnimal(a: Animal) {
    a.Other? ==> a.name != "dog" && a.name != "cat"
  }

  predicate Canonical(p: Person) {
    && CanonicalAnimal(p.favoriteAnimal)
    && (p.secondFavoriteAnimal.Some? ==> CanonicalAnimal(p.secondFavoriteAnimal.value))
    && (p.thirdFavoriteAnimal.Some? ==> CanonicalAnimal(p.thirdFavoriteAnimal.value))
  }

  // ---------------------------------------------------------------- encoding

  /** `Animal.encode(to:)`: a record whose one field, `rawValue`, holds the animal's raw string. */
  function EncodeAnimal(a: Animal, rename: string -> string): (r: TaggedValue)
    ensures r.M? && r.m.Keys == {rename("rawValue")}
    ensures r.m[rename("rawValue")] == S(AnimalRawValue(a))
  {
    M(map[rename("rawValue") := S(AnimalRawValue(a))])
  }

  /** The synthesised encoding of `Allergy`: three strings, the severity as its raw value. */
  function EncodeAllergy(a: Allergy, rename: string -> string): (r: TaggedValue)
    ensures r.M? && r.m.Keys == {rename("name"), rename("category"), rename("severity")}
    ensures r.m[rename("severity")] == S(SeverityRawValue(a.severity))
    ensures rename("category") != rename("severity") ==> r.m[rename("category")] == S(a.category)
    ensures rename("name") != rename("category") && rename("name") != rename("severity") ==>
      r.m[rename("name")] == S(a.name)
  {
    M(map[
      rename("name") := S(a.name),
      rename("category") := S(a.category),
      rename("severity") := S(SeverityRawValue(a.severity))])
  }

  function EncodeAllergies(allergies: seq<Allergy>, rename: string -> string): seq<TaggedValue> {
    seq(|allergies|, i requires 0 <= i < |allergies| => EncodeAllergy(allergies[i], rename))
  }

  /** An optional field: present as its value, or left out of the item when nil. */
  function OptionalAnimal(key: string, a: Option<Animal>, rename: string -> string): Item {
    match a
    case Some(v) => map[key := EncodeAnimal(v, rename)]
    case None => map[]
  }

  /**
   * The encoding of a person with field names renamed by `rename`: one key per field, except that
   * a nil optional is left out (`RecordKeys` shows the item holds no other key).
   */
  function EncodeRecord(p: Person, rename: string -> string): (r: Item)
    ensures rename("firstName") in r && rename("lastName") in r && rename("age") in r
    ensures rename("favoriteAnimal") in r && rename("allergies") in r
    ensures p.secondFavoriteAnimal.Some? ==> rename("secondFavoriteAnimal") in r
    ensures p.thirdFavoriteAnimal.Some? ==> rename("thirdFavoriteAnimal") in r
  {
    RequiredFields(p, rename)
    + OptionalAnimal(rename("secondFavoriteAnimal"), p.secondFavoriteAnimal, rename)
    + OptionalAnimal(rename("thirdFavoriteAnimal"), p.thirdFavoriteAnimal, rename)
  }

  // ---------------------------------------------------------------- decoding

  function Required(item: Item, key: string): (r: Result<TaggedValue, CodecError>)
    ensures r.Success? <==> key in item
    ensures r.Success? ==> r.value == item[key]
    ensures r.Failure? ==> r.error == MissingRequiredField(key)
  {
    if key in item then Success(item[key]) else Failure(MissingRequiredField(key))
  }

  function AsString(v: TaggedValue, key: string): (r: Result<string, CodecError>)
    ensures r.Success? <==> v.S?
    ensures r.Success? ==> r.value == v.s
  {
    match v
    case S(s) => Success(s)
    case _ => Failure(TypeMismatch(key))
  }

  function DecodeString(item: Item, key: string): (r: Result<string, CodecError>)
    ensures r.Success? <==> key in item && item[key].S?
    ensures r.Success? ==> r.value == item[key].s
    ensures r.Failure? ==> r.error == if key in item then TypeMismatch(key) else MissingRequiredField(key)
  {
    var v :- Required(item, key);
    AsString(v, key)
  }

  /** An `Int`: an `N` whose text is an integer within the 64-bit range. */
  function DecodeInt(item: Item, key: string): (r: Result<Int64, CodecError>)
    ensures key !in item ==> r == Failure(MissingRequiredField(key))
    ensures r.Success? <==>
      && key in item && item[key].N? && ParseInt(item[key].n).Some?
      && -0x8000_0000_0000_0000 <= ParseInt(item[key].n).value < 0x8000_0000_0000_0000
    ensures r.Success? ==> ParseInt(item[key].n) == Some(r.value as int)
    ensures key in item && r.Failure? ==> r.error == TypeMismatch(key)
  {
    var v :- Required(item, key);
    match v
    case N(text) =>
      (match ParseInt(text)
       case Some(i) =>
         if -0x8000_0000_0000_0000 <= i < 0x8000_0000_0000_0000 then Success(i as Int64)
         else Failure(TypeMismatch(key))
       case None => Failure(TypeMismatch(key)))
    case _ => Failure(TypeMismatch(key))
  }

  function DecodeAnimal(v: TaggedValue, key: string, rename: string -> string): (r: Result<Animal, CodecError>)
    ensures r.Success? <==> v.M? && rename("rawValue") in v.m && v.m[rename("rawValue")].S?
    ensures r.Success? ==> r.value == AnimalFromRawValue(v.m[rename("rawValue")].s)
    ensures r.Success? ==> CanonicalAnimal(r.value)
    ensures !v.M? ==> r == Failure(TypeMismatch(key))
    ensures v.M? && r.Failure? ==> r.error == DecodeString(v.m, rename("rawValue")).error
  {
    match v
    case M(fields) =>
      var raw :- DecodeString(fields, rename("rawValue"));
      Success(AnimalFromRawValue(raw))
    case _ => Failure(TypeMismatch(key))
  }

  /** `decodeIfPresent`: absence is nil, but a present value must decode. */
  function DecodeOptionalAnimal(item: Item, key: string, rename: string -> string): (r: Result<Option<Animal>, CodecError>)
    ensures key !in item ==> r == Success(None)
    ensures key in item ==> r.Success? ==> r.value.Some?
    ensures key in item ==>
      var d := DecodeAnimal(item[key], key, rename);
      && (r.Success? <==> d.Success?)
      && (r.Success? ==> r.value == Some(d.value))
      && (r.Failure? ==> r.error == d.error)
  {
    if key !in item then Success(None)
    else
      var a :- DecodeAnimal(item[key], key, rename);
      Success(Some(a))
  }

  function DecodeAllergy(v: TaggedValue, key: string, rename: string -> string): (r: Result<Allergy, CodecError>)
    ensures r.Success? <==>
      && v.M?
      && DecodeString(v.m, rename("name")).Success?
      && DecodeString(v.m, rename("category")).Success?
      && DecodeString(v.m, rename("severity")).Success?
      && SeverityFromRawValue(v.m[rename("severity")].s).Some?
    ensures r.Success? ==> r.value == Allergy(v.m[rename("name")].s, v.m[rename("category")].s,
      SeverityFromRawValue(v.m[rename("severity")].s).value)
    ensures !v.M? ==> r == Failure(TypeMismatch(key))
    ensures v.M? && r.Failure? ==>
      var name := DecodeString(v.m, rename("name"));
      var category := DecodeString(v.m, rename("category"));
      var severity := DecodeString(v.m, rename("severity"));
      r.error ==
        if name.Failure? then name.error
        else if category.Failure? then category.error
        else if severity.Failure? then severity.error
        else UnknownVariant(severity.value)
  {
    match v
    case M(fields) =>
      var name :- DecodeString(fields, rename("name"));
      var category :- DecodeString(fields, rename("category"));
      var raw :- DecodeString(fields, rename("severity"));
      (match SeverityFromRawValue(raw)
       case Some(severity) => Success(Allergy(name, category, severity))
       case None => Failure(UnknownVariant(raw)))
    case _ => Failure(TypeMismatch(key))
  }

  /** Every element must decode; the first failure is the result, and order is kept. */
  function DecodeAllergies(items: seq<TaggedValue>, key: string, rename: string -> string): (r: Result<seq<Allergy>, CodecError>)
    ensures r.Success? <==> forall i :: 0 <= i < |items| ==> DecodeAllergy(items[i], key, rename).Success?
    ensures r.Success? ==> |r.value| == |items|
    ensures r.Success? ==> forall i :: 0 <= i < |items| ==> DecodeAllergy(items[i], key, rename) == Success(r.value[i])
    ensures r.Failure? ==> exists j :: (0 <= j < |items| && DecodeAllergy(items[j], key, rename) == Failure(r.error)
      && forall i :: 0 <= i < j ==> DecodeAllergy(items[i], key, rename).Success?)
  {
    if items == [] then Success([])
    else
      var first :- DecodeAllergy(items[0], key, rename);
      var rest :- DecodeAllergies(items[1..], key, rename);
      Success([first] + rest)
  }

  /** A required animal: the key must be present and its value must decode. */
  function DecodeRequiredAnimal(item: Item, key: string, rename: string -> string): (r: Result<Animal, CodecError>)
    ensures key !in item ==> r == Failure(MissingRequiredField(key))
    ensures key in item ==> r == DecodeAnimal(item[key], key, rename)
  {
    var v :- Required(item, key);
    DecodeAnimal(v, key, rename)
  }

  /** The allergy list: the key must be present and hold an `L` whose every element decodes. */
  function DecodeAllergyList(item: Item, key: string, rename: string -> string): (r: Result<seq<Allergy>, CodecError>)
    ensures key !in item ==> r == Failure(MissingRequiredField(key))
    ensures key in item && !item[key].L? ==> r == Failure(TypeMismatch(key))
    ensures key in item && item[key].L? ==> r == DecodeAllergies(item[key].l, key, rename)
  {
    var v :- Required(item, key);
    match v
    case L(items) => DecodeAllergies(items, key, rename)
    case _ => Failure(TypeMismatch(key))
  }

  /** The error a decoding step ends with, or nothing when it succeeds. */
  function ErrorOf<T>(r: Result<T, CodecError>): (e: Option<CodecError>)
    ensures e == if r.Success? then None else Some(r.error)
  {
    if r.Success? then None else Some(r.error)
  }

  /** The outcome of each field's decoder, in the order the fields are declared. */
  function FieldErrors(item: Item, rename: string -> string): seq<Option<CodecError>> {
    [ ErrorOf(DecodeString(item, rename("firstName"))),
      ErrorOf(DecodeString(item, rename("lastName"))),
      ErrorOf(DecodeInt(item, rename("age"))),
      ErrorOf(DecodeRequiredAnimal(item, rename("favoriteAnimal"), rename)),
      ErrorOf(DecodeOptionalAnimal(item, rename("secondFavoriteAnimal"), rename)),
      ErrorOf(DecodeOptionalAnimal(item, rename("thirdFavoriteAnimal"), rename)),
      ErrorOf(DecodeAllergyList(item, rename("allergies"), rename)) ]
  }

  /** `e` is the error of the first failing step among `errs`. */
  ghost predicate FirstError(errs: seq<Option<CodecError>>, e: CodecError) {
    exists j :: 0 <= j < |errs| && errs[j] == Some(e) && forall i :: 0 <= i < j ==> errs[i].None?
  }

  /**
   * The decoding of a person whose field names were renamed by `rename`: it succeeds exactly when
   * every field decodes, and then holds what each field decoded to (`DecodeRecordOutcome` says
   * which error a failure carries).
   */
  function DecodeRecord(item: Item, rename: string -> string): (r: Result<Person, CodecError>)
    ensures r.Success? <==>
      && DecodeString(item, rename("firstName")).Success?
      && DecodeString(item, rename("lastName")).Success?
      && DecodeInt(item, rename("age")).Success?
      && DecodeRequiredAnimal(item, rename("favoriteAnimal"), rename).Success?
      && DecodeOptionalAnimal(item, rename("secondFavoriteAnimal"), rename).Success?
      && DecodeOptionalAnimal(item, rename("thirdFavoriteAnimal"), rename).Success?
      && DecodeAllergyList(item, rename("allergies"), rename).Success?
    ensures r.Failure? ==>
      var firstName := DecodeString(item, rename("firstName"));
      var lastName := DecodeString(item, rename("lastName"));
      var age := DecodeInt(item, rename("age"));
      var favoriteAnimal := DecodeRequiredAnimal(item, rename("favoriteAnimal"), rename);
      var secondFavoriteAnimal := DecodeOptionalAnimal(item, rename("secondFavoriteAnimal"), rename);
      var thirdFavoriteAnimal := DecodeOptionalAnimal(item, rename("thirdFavoriteAnimal"), rename);
      r.error ==
        if firstName.Failure? then firstName.error
        else if lastName.Failure? then lastName.error
        else if age.Failure? then age.error
        else if favoriteAnimal.Failure? then favoriteAnimal.error
        else if secondFavoriteAnimal.Failure? then secondFavoriteAnimal.error
        else if thirdFavoriteAnimal.Failure? then thirdFavoriteAnimal.error
        else DecodeAllergyList(item, rename("allergies"), rename).error
    ensures r.Success? ==>
      && DecodeString(item, rename("firstName")) == Success(r.value.firstName)
      && DecodeString(item, rename("lastName")) == Success(r.value.lastName)
      && DecodeInt(item, rename("age")) == Success(r.value.age)
      && DecodeRequiredAnimal(item, rename("favoriteAnimal"), rename) == Success(r.value.favoriteAnimal)
      && DecodeOptionalAnimal(item, rename("secondFavoriteAnimal"), rename) == Success(r.value.secondFavoriteAnimal)
      && DecodeOptionalAnimal(item, rename("thirdFavoriteAnimal"), rename) == Success(r.value.thirdFavoriteAnimal)
      && DecodeAllergyList(item, rename("allergies"), rename) == Success(r.value.allergies)
  {
    var firstName :- DecodeString(item, rename("firstName"));
    var lastName :- DecodeString(item, rename("lastName"));
    var age :- DecodeInt(item, rename("age"));
    var favoriteAnimal :- DecodeRequiredAnimal(item, rename("favoriteAnimal"), rename);
    var secondFavoriteAnimal :- DecodeOptionalAnimal(item, rename("secondFavoriteAnimal"), rename);
    var thirdFavoriteAnimal :- DecodeOptionalAnimal(item, rename("thirdFavoriteAnimal"), rename);
    var allergies :- DecodeAllergyList(item, rename("allergies"), rename);
    Success(Person(firstName, lastName, age, favoriteAnimal, secondFavoriteAnimal, thirdFavoriteAnimal, allergies))
  }

  /** The first failure among the seven field steps, read off step by step. */
  lemma FirstOfSevenSteps(errs: seq<Option<CodecError>>)
    requires |errs| == 7
    ensures (forall i :: 0 <= i < |errs| ==> errs[i].None?) <==>
      errs[0].None? && errs[1].None? && errs[2].None? && errs[3].None? && errs[4].None? && errs[5].None? && errs[6].None?
    ensures errs[0].Some? || errs[1].Some? || errs[2].Some? || errs[3].Some? || errs[4].Some? || errs[5].Some? || errs[6].Some? ==>
      FirstError(errs,
        if errs[0].Some? then errs[0].value else if errs[1].Some? then errs[1].value
        else if errs[2].Some? then errs[2].value else if errs[3].Some? then errs[3].value
        else if errs[4].Some? then errs[4].value else if errs[5].Some? then errs[5].value
        else errs[6].value)
  {
    var j := if errs[0].Some? then 0 else if errs[1].Some? then 1 else if errs[2].Some? then 2
      else if errs[3].Some? then 3 else if errs[4].Some? then 4 else if errs[5].Some? then 5 else 6;
    assert forall i :: 0 <= i < j ==> errs[i].None?;
  }

  /**
   * Decoding succeeds exactly when no field's decoder fails, and a failed decoding carries the error
   * of the first field, in declaration order, that does not decode.
   */
  lemma DecodeRecordOutcome(item: Item, rename: string -> string)
    ensures var errs := FieldErrors(item, rename);
      DecodeRecord(item, rename).Success? <==> forall i :: 0 <= i < |errs| ==> errs[i].None?
    ensures DecodeRecord(item, rename).Failure? ==>
      FirstError(FieldErrors(item, rename), DecodeRecord(item, rename).error)
  {
    FirstOfSevenSteps(FieldErrors(item, rename));
  }

  /** The renaming the case settings apply to every field name. */
  function Renaming(cs: CaseSettings): string -> string {
    name => Key(name, cs)
  }

  /**
   * `person.toDynamo(caseSettings: cs)`: every field name, at every depth, goes through `Key`.
   * Since no two field names of a record share a key under any settings, each field is found under
   * its own key, and an optional one exactly when it is not nil.
   */
  function EncodePerson(p: Person, cs: CaseSettings): (r: Item)
    ensures Key("firstName", cs) in r && Key("lastName", cs) in r && Key("age", cs) in r
    ensures Key("favoriteAnimal", cs) in r && Key("allergies", cs) in r
    ensures r[Key("firstName", cs)] == S(p.firstName)
    ensures r[Key("lastName", cs)] == S(p.lastName)
    ensures r[Key("age", cs)] == N(IntToDecimal(p.age as int))
    ensures r[Key("favoriteAnimal", cs)] == EncodeAnimal(p.favoriteAnimal, Renaming(cs))
    ensures r[Key("allergies", cs)] == L(EncodeAllergies(p.allergies, Renaming(cs)))
    ensures Key("secondFavoriteAnimal", cs) in r <==> p.secondFavoriteAnimal.Some?
    ensures Key("thirdFavoriteAnimal", cs) in r <==> p.thirdFavoriteAnimal.Some?
    ensures p.secondFavoriteAnimal.Some? ==>
      r[Key("secondFavoriteAnimal", cs)] == EncodeAnimal(p.secondFavoriteAnimal.value, Renaming(cs))
    ensures p.thirdFavoriteAnimal.Some? ==>
      r[Key("thirdFavoriteAnimal", cs)] == EncodeAnimal(p.thirdFavoriteAnimal.value, Renaming(cs))
  {
    KeysSeparateFields(cs);
    EncodedFields(p, Renaming(cs));
    EncodeRecord(p, Renaming(cs))
  }

  /**
   * `item.fromDynamo(type: Person.self, caseSettings: cs)`: fields are looked up under their wire
   * keys; the result is a person exactly when every field decodes, holding what each field decoded
   * to, and otherwise the first field's error.
   */
  function DecodePerson(item: Item, cs: CaseSettings): (r: Result<Person, CodecError>)
    ensures var errs := FieldErrors(item, Renaming(cs));
      r.Success? <==> forall i :: 0 <= i < |errs| ==> errs[i].None?
    ensures r.Failure? ==> FirstError(FieldErrors(item, Renaming(cs)), r.error)
    ensures Key("firstName", cs) !in item ==> r == Failure(MissingRequiredField(Key("firstName", cs)))
    ensures r.Success? ==>
      && DecodeString(item, Key("firstName", cs)) == Success(r.value.firstName)
      && DecodeString(item, Key("lastName", cs)) == Success(r.value.lastName)
      && DecodeInt(item, Key("age", cs)) == Success(r.value.age)
      && DecodeRequiredAnimal(item, Key("favoriteAnimal", cs), Renaming(cs)) == Success(r.value.favoriteAnimal)
      && DecodeOptionalAnimal(item, Key("secondFavoriteAnimal", cs), Renaming(cs)) == Success(r.value.secondFavoriteAnimal)
      && DecodeOptionalAnimal(item, Key("thirdFavoriteAnimal", cs), Renaming(cs)) == Success(r.value.thirdFavoriteAnimal)
      && DecodeAllergyList(item, Key("allergies", cs), Renaming(cs)) == Success(r.value.allergies)
  {
    DecodeRecordOutcome(item, Renaming(cs));
    DecodeRecord(item, Renaming(cs))
  }

  // ---------------------------------------------------------------- properties

  /** The schema's field names are distinct camel-case names: no underscore, no leading capital. */
  lemma SchemaNamesAreCamel()
    ensures forall i :: 0 <= i < |PersonFields| ==> WellFormed(PersonFields[i], Camel)
    ensures forall i :: 0 <= i < |AllergyFields| ==> WellFormed(AllergyFields[i], Camel)
    ensures Distinct(PersonFields) && Distinct(AllergyFields)
  {
  }

  /** `rename` keeps the field names of each record of the schema apart. */
  ghost predicate SeparatesFields(rename: string -> string) {
    Distinct(RenameAll(PersonFields, rename)) && Distinct(RenameAll(AllergyFields, rename))
  }

  /**
   * Converting distinct camel-case names keeps them distinct, whatever the settings: such a name
   * reads as itself in every source style, so its key is its target form, which reads back to it.
   */
  lemma ConvertKeepsDistinct(names: seq<string>, cs: CaseSettings)
    requires Distinct(names)
    requires forall i :: 0 <= i < |names| ==> WellFormed(names[i], Camel)
    ensures Distinct(RenameAll(names, Renaming(cs)))
  {
    var keys := RenameAll(names, Renaming(cs));
    forall i, j | 0 <= i < j < |names|
      ensures keys[i] != keys[j]
    {
      if cs.source != cs.target && keys[i] == keys[j] {
        ConvertCamelName(names[i], cs.source, cs.target);
        ConvertCamelName(names[j], cs.source, cs.target);
        FromCamelAndBack(names[i], cs.target);
        FromCamelAndBack(names[j], cs.target);
      }
    }
  }

  /** Under any settings, no two field names of one record share a wire key. */
  lemma KeysSeparateFields(cs: CaseSettings)
    ensures SeparatesFields(Renaming(cs))
  {
    SchemaNamesAreCamel();
    ConvertKeepsDistinct(PersonFields, cs);
    ConvertKeepsDistinct(AllergyFields, cs);
  }

  lemma AllergyRoundTrip(a: Allergy, key: string, rename: string -> string)
    requires rename("name") != rename("category") && rename("name") != rename("severity")
    requires rename("category") != rename("severity")
    ensures DecodeAllergy(EncodeAllergy(a, rename), key, rename) == Success(a)
  {
    var fields := EncodeAllergy(a, rename).m;
    assert DecodeString(fields, rename("name")) == Success(a.name);
    assert DecodeString(fields, rename("category")) == Success(a.category);
    assert DecodeString(fields, rename("severity")) == Success(SeverityRawValue(a.severity));
  }

  lemma {:induction false} AllergiesRoundTrip(allergies: seq<Allergy>, key: string, rename: string -> string)
    requires rename("name") != rename("category") && rename("name") != rename("severity")
    requires rename("category") != rename("severity")
    ensures DecodeAllergies(EncodeAllergies(allergies, rename), key, rename) == Success(allergies)
  {
    if allergies != [] {
      var items := EncodeAllergies(allergies, rename);
      assert items[0] == EncodeAllergy(allergies[0], rename);
      AllergyRoundTrip(allergies[0], key, rename);
      assert items[1..] == EncodeAllergies(allergies[1..], rename);
      AllergiesRoundTrip(allergies[1..], key, rename);
      assert [allergies[0]] + allergies[1..] == allergies;
    }
  }

  lemma AnimalRoundTrip(a: Animal, key: string, rename: string -> string)
    requires CanonicalAnimal(a)
    ensures DecodeAnimal(EncodeAnimal(a, rename), key, rename) == Success(a)
  {
  }

  /**
   * What each field of a person becomes: strings are `S`, the age is `N` with its decimal text,
   * the favourite animal is an `M`, the allergies an `L` of `M` in order, and an optional animal is
   * present exactly when it is not nil.
   */
  lemma EncodedFields(p: Person, rename: string -> string)
    requires SeparatesFields(rename)
    ensures var item := EncodeRecord(p, rename);
      && item[rename("firstName")] == S(p.firstName)
      && item[rename("lastName")] == S(p.lastName)
      && item[rename("age")] == N(IntToDecimal(p.age as int))
      && item[rename("favoriteAnimal")] == EncodeAnimal(p.favoriteAnimal, rename)
      && item[rename("allergies")] == L(EncodeAllergies(p.allergies, rename))
      && (rename("secondFavoriteAnimal") in item <==> p.secondFavoriteAnimal.Some?)
      && (p.secondFavoriteAnimal.Some? ==>
            item[rename("secondFavoriteAnimal")] == EncodeAnimal(p.secondFavoriteAnimal.value, rename))
      && (rename("thirdFavoriteAnimal") in item <==> p.thirdFavoriteAnimal.Some?)
      && (p.thirdFavoriteAnimal.Some? ==>
            item[rename("thirdFavoriteAnimal")] == EncodeAnimal(p.thirdFavoriteAnimal.value, rename))
  {
    var keys := RenameAll(PersonFields, rename);
    assert keys[0] != keys[5] && keys[0] != keys[6] && keys[1] != keys[5] && keys[1] != keys[6];
    assert keys[2] != keys[5] && keys[2] != keys[6] && keys[3] != keys[5] && keys[3] != keys[6];
    assert keys[4] != keys[5] && keys[4] != keys[6] && keys[5] != keys[6];
    EncodedRequiredFields(p, rename);
    var second := OptionalAnimal(keys[5], p.secondFavoriteAnimal, rename);
    var third := OptionalAnimal(keys[6], p.thirdFavoriteAnimal, rename);
    assert EncodeRecord(p, rename) == RequiredFields(p, rename) + second + third;
    assert second.Keys <= {keys[5]} && third.Keys <= {keys[6]};
  }

  /** The part of a record's encoding that every person has. */
  function RequiredFields(p: Person, rename: string -> string): Item {
    map[
      rename("firstName") := S(p.firstName),
      rename("lastName") := S(p.lastName),
      rename("age") := N(IntToDecimal(p.age as int)),
      rename("favoriteAnimal") := EncodeAnimal(p.favoriteAnimal, rename),
      rename("allergies") := L(EncodeAllergies(p.allergies, rename))]
  }

  lemma EncodedRequiredFields(p: Person, rename: string -> string)
    requires SeparatesFields(rename)
    ensures var base := RequiredFields(p, rename);
      && base[rename("firstName")] == S(p.firstName)
      && base[rename("lastName")] == S(p.lastName)
      && base[rename("age")] == N(IntToDecimal(p.age as int))
      && base[rename("favoriteAnimal")] == EncodeAnimal(p.favoriteAnimal, rename)
      && base[rename("allergies")] == L(EncodeAllergies(p.allergies, rename))
  {
    var keys := RenameAll(PersonFields, rename);
    assert keys[0] != keys[1] && keys[0] != keys[2] && keys[0] != keys[3] && keys[0] != keys[4];
    assert keys[1] != keys[2] && keys[1] != keys[3] && keys[1] != keys[4];
    assert keys[2] != keys[3] && keys[2] != keys[4] && keys[3] != keys[4];
  }

  lemma RecordRoundTrip(p: Person, rename: string -> string)
    requires SeparatesFields(rename)
    requires Canonical(p)
    ensures DecodeRecord(EncodeRecord(p, rename), rename) == Success(p)
  {
    var item := EncodeRecord(p, rename);
    EncodedFields(p, rename);
    IntToDecimalRoundTrip(p.age as int);
    assert DecodeString(item, rename("firstName")) == Success(p.firstName);
    assert DecodeString(item, rename("lastName")) == Success(p.lastName);
    assert DecodeInt(item, rename("age")) == Success(p.age);
    AnimalRoundTrip(p.favoriteAnimal, rename("favoriteAnimal"), rename);
    if p.secondFavoriteAnimal.Some? {
      AnimalRoundTrip(p.secondFavoriteAnimal.value, rename("secondFavoriteAnimal"), rename);
    }
    assert DecodeOptionalAnimal(item, rename("secondFavoriteAnimal"), rename) == Success(p.secondFavoriteAnimal);
    if p.thirdFavoriteAnimal.Some? {
      AnimalRoundTrip(p.thirdFavoriteAnimal.value, rename("thirdFavoriteAnimal"), rename);
    }
    assert DecodeOptionalAnimal(item, rename("thirdFavoriteAnimal"), rename) == Success(p.thirdFavoriteAnimal);
    var allergyKeys := RenameAll(AllergyFields, rename);
    assert allergyKeys[0] != allergyKeys[1] && allergyKeys[0] != allergyKeys[2] && allergyKeys[1] != allergyKeys[2];
    AllergiesRoundTrip(p.allergies, rename("allergies"), rename);
  }

  /**
   * Decoding with the settings used to encode gives back the person, every field included (so in
   * particular a person equal to it under the record's own `==`), whatever the settings.
   */
  lemma RoundTrip(p: Person, cs: CaseSettings)
    requires Canonical(p)
    ensures DecodePerson(EncodePerson(p, cs), cs) == Success(p)
  {
    KeysSeparateFields(cs);
    RecordRoundTrip(p, Renaming(cs));
  }

  /** The animal decoder cannot tell `.other(name: "cat")` from `.cat`: the raw value is all it sees. */
  lemma OtherNamedCatDecodesAsCat(rename: string -> string)
    ensures DecodeAnimal(EncodeAnimal(Other("cat"), rename), "favoriteAnimal", rename) == Success(Cat)
  {
  }

  /** The record's own `==` ignores `thirdFavoriteAnimal`, and only that field. */
  lemma EquivalentIgnoresOnlyThird(a: Person, b: Person)
    ensures Equivalent(a, b) <==> a.(thirdFavoriteAnimal := b.thirdFavoriteAnimal) == b
  {
  }

  lemma OptionalAnimalKeys(key: string, a: Option<Animal>, rename: string -> string, P: string -> bool)
    requires P(key) && P(rename("rawValue"))
    ensures EveryItemKey(OptionalAnimal(key, a, rename), P)
  {
  }

  /** Every key at every depth of an encoded person is the renaming of a field name of the schema. */
  lemma EveryKeyIsRenamedField(p: Person, rename: string -> string, P: string -> bool)
    requires forall i :: 0 <= i < |PersonFields| ==> P(rename(PersonFields[i]))
    requires forall i :: 0 <= i < |AllergyFields| ==> P(rename(AllergyFields[i]))
    requires P(rename(AnimalFields[0]))
    ensures EveryItemKey(EncodeRecord(p, rename), P)
  {
    var item := EncodeRecord(p, rename);
    var names := PersonFields;
    assert P(rename(names[0])) && P(rename(names[1])) && P(rename(names[2])) && P(rename(names[3]));
    assert P(rename(names[4])) && P(rename(names[5])) && P(rename(names[6]));
    assert P(rename(AllergyFields[0])) && P(rename(AllergyFields[1])) && P(rename(AllergyFields[2]));
    forall a: Animal ensures EveryKey(EncodeAnimal(a, rename), P) {
    }
    var allergies := EncodeAllergies(p.allergies, rename);
    forall i | 0 <= i < |allergies| ensures EveryKey(allergies[i], P) {
      assert allergies[i] == EncodeAllergy(p.allergies[i], rename);
    }
    assert EveryKey(L(allergies), P);
    var m0: Item := map[];
    var m1 := m0[rename("firstName") := S(p.firstName)];
    var m2 := m1[rename("lastName") := S(p.lastName)];
    var m3 := m2[rename("age") := N(IntToDecimal(p.age as int))];
    var m4 := m3[rename("favoriteAnimal") := EncodeAnimal(p.favoriteAnimal, rename)];
    var base := m4[rename("allergies") := L(allergies)];
    EveryItemKeyOfUpdate(m0, rename("firstName"), S(p.firstName), P);
    EveryItemKeyOfUpdate(m1, rename("lastName"), S(p.lastName), P);
    EveryItemKeyOfUpdate(m2, rename("age"), N(IntToDecimal(p.age as int)), P);
    EveryItemKeyOfUpdate(m3, rename("favoriteAnimal"), EncodeAnimal(p.favoriteAnimal, rename), P);
    EveryItemKeyOfUpdate(m4, rename("allergies"), L(allergies), P);
    var second := OptionalAnimal(rename("secondFavoriteAnimal"), p.secondFavoriteAnimal, rename);
    var third := OptionalAnimal(rename("thirdFavoriteAnimal"), p.thirdFavoriteAnimal, rename);
    OptionalAnimalKeys(rename("secondFavoriteAnimal"), p.secondFavoriteAnimal, rename, P);
    OptionalAnimalKeys(rename("thirdFavoriteAnimal"), p.thirdFavoriteAnimal, rename, P);
    EveryItemKeyOfUnion(base, second, P);
    EveryItemKeyOfUnion(base + second, third, P);
    assert item == base + second + third;
  }

  /**
   * Encoding from camel case writes every key, at every depth, in the target style: with snake
   * settings no key holds a capital letter, with Pascal settings every key starts with one.
   */
  lemma EveryKeyInTargetStyle(p: Person, cs: CaseSettings)
    requires cs.source == Camel
    ensures EveryItemKey(EncodePerson(p, cs), key => WellFormed(key, cs.target))
  {
    SchemaNamesAreCamel();
    forall i | 0 <= i < |PersonFields| ensures WellFormed(Key(PersonFields[i], cs), cs.target) {
      ConvertLandsInTarget(PersonFields[i], Camel, cs.target);
    }
    forall i | 0 <= i < |AllergyFields| ensures WellFormed(Key(AllergyFields[i], cs), cs.target) {
      ConvertLandsInTarget(AllergyFields[i], Camel, cs.target);
    }
    assert WellFormed(AnimalFields[0], Camel);
    ConvertLandsInTarget(AnimalFields[0], Camel, cs.target);
    EveryKeyIsRenamedField(p, Renaming(cs), key => WellFormed(key, cs.target));
  }

  /** `f` carries each schema name's key under `r0` to its key under `r1`. */
  ghost predicate CarriesKeys(r0: string -> string, r1: string -> string, f: string -> string) {
    && (forall i :: 0 <= i < |PersonFields| ==> f(r0(PersonFields[i])) == r1(PersonFields[i]))
    && (forall i :: 0 <= i < |AllergyFields| ==> f(r0(AllergyFields[i])) == r1(AllergyFields[i]))
    && f(r0(AnimalFields[0])) == r1(AnimalFields[0])
  }

  lemma AnimalRenamed(a: Animal, r0: string -> string, r1: string -> string, f: string -> string)
    requires f(r0("rawValue")) == r1("rawValue")
    ensures Renamed(EncodeAnimal(a, r0), EncodeAnimal(a, r1), f)
  {
  }

  lemma AllergyRenamed(a: Allergy, r0: string -> string, r1: string -> string, f: string -> string)
    requires CarriesKeys(r0, r1, f) && SeparatesFields(r0) && SeparatesFields(r1)
    ensures Renamed(EncodeAllergy(a, r0), EncodeAllergy(a, r1), f)
  {
    assert f(r0(AllergyFields[0])) == r1(AllergyFields[0]);
    assert f(r0(AllergyFields[1])) == r1(AllergyFields[1]);
    assert f(r0(AllergyFields[2])) == r1(AllergyFields[2]);
    var k0 := RenameAll(AllergyFields, r0);
    var k1 := RenameAll(AllergyFields, r1);
    assert k0[0] != k0[1] && k0[0] != k0[2] && k0[1] != k0[2];
    assert k1[0] != k1[1] && k1[0] != k1[2] && k1[1] != k1[2];
  }

  /** The facts about `r0`, `r1` and `f` that renaming a whole record needs, spelled out per field. */
  ghost predicate CarriesFields(r0: string -> string, r1: string -> string, f: string -> string) {
    && f(r0("firstName")) == r1("firstName") && f(r0("lastName")) == r1("lastName")
    && f(r0("age")) == r1("age") && f(r0("favoriteAnimal")) == r1("favoriteAnimal")
    && f(r0("allergies")) == r1("allergies")
    && f(r0("secondFavoriteAnimal")) == r1("secondFavoriteAnimal")
    && f(r0("thirdFavoriteAnimal")) == r1("thirdFavoriteAnimal")
    && (forall a: Animal :: Renamed(EncodeAnimal(a, r0), EncodeAnimal(a, r1), f))
  }

  lemma CarriesKeysFields(r0: string -> string, r1: string -> string, f: string -> string)
    requires CarriesKeys(r0, r1, f)
    ensures CarriesFields(r0, r1, f)
  {
    assert f(r0(PersonFields[0])) == r1(PersonFields[0]) && f(r0(PersonFields[1])) == r1(PersonFields[1]);
    assert f(r0(PersonFields[2])) == r1(PersonFields[2]) && f(r0(PersonFields[3])) == r1(PersonFields[3]);
    assert f(r0(PersonFields[4])) == r1(PersonFields[4]) && f(r0(PersonFields[5])) == r1(PersonFields[5]);
    assert f(r0(PersonFields[6])) == r1(PersonFields[6]);
    forall a: Animal ensures Renamed(EncodeAnimal(a, r0), EncodeAnimal(a, r1), f) {
      AnimalRenamed(a, r0, r1, f);
    }
  }

  lemma AllergiesRenamed(allergies: seq<Allergy>, r0: string -> string, r1: string -> string, f: string -> string)
    requires CarriesKeys(r0, r1, f) && SeparatesFields(r0) && SeparatesFields(r1)
    ensures Renamed(L(EncodeAllergies(allergies, r0)), L(EncodeAllergies(allergies, r1)), f)
  {
    var xs := EncodeAllergies(allergies, r0);
    var ys := EncodeAllergies(allergies, r1);
    forall i | 0 <= i < |xs| ensures Renamed(xs[i], ys[i], f) {
      AllergyRenamed(allergies[i], r0, r1, f);
    }
  }

  /** An encoded record holds only keys of its schema's fields. */
  lemma RecordKeys(p: Person, rename: string -> string, k: string)
    requires k in EncodeRecord(p, rename)
    ensures || k == rename("firstName") || k == rename("lastName") || k == rename("age")
            || k == rename("favoriteAnimal") || k == rename("allergies")
            || (k == rename("secondFavoriteAnimal") && p.secondFavoriteAnimal.Some?)
            || (k == rename("thirdFavoriteAnimal") && p.thirdFavoriteAnimal.Some?)
  {
  }

  lemma ScalarKeyRenamed(p: Person, r0: string -> string, r1: string -> string, f: string -> string, k: string)
    requires CarriesFields(r0, r1, f) && SeparatesFields(r0) && SeparatesFields(r1)
    requires k == r0("firstName") || k == r0("lastName") || k == r0("age")
    ensures f(k) in EncodeRecord(p, r1)
    ensures Renamed(EncodeRecord(p, r0)[k], EncodeRecord(p, r1)[f(k)], f)
  {
    var x := EncodeRecord(p, r0);
    var y := EncodeRecord(p, r1);
    EncodedFields(p, r0);
    EncodedFields(p, r1);
    if k == r0("firstName") {
      assert x[k] == y[f(k)] == S(p.firstName);
    } else if k == r0("lastName") {
      assert x[k] == y[f(k)] == S(p.lastName);
    } else {
      assert x[k] == y[f(k)];
    }
  }

  lemma NestedKeyRenamed(p: Person, r0: string -> string, r1: string -> string, f: string -> string, k: string)
    requires CarriesFields(r0, r1, f) && SeparatesFields(r0) && SeparatesFields(r1)
    requires Renamed(L(EncodeAllergies(p.allergies, r0)), L(EncodeAllergies(p.allergies, r1)), f)
    requires k == r0("favoriteAnimal") || k == r0("allergies")
    ensures f(k) in EncodeRecord(p, r1)
    ensures Renamed(EncodeRecord(p, r0)[k], EncodeRecord(p, r1)[f(k)], f)
  {
    var x := EncodeRecord(p, r0);
    var y := EncodeRecord(p, r1);
    EncodedFields(p, r0);
    EncodedFields(p, r1);
    if k == r0("favoriteAnimal") {
      assert x[k] == EncodeAnimal(p.favoriteAnimal, r0) && y[f(k)] == EncodeAnimal(p.favoriteAnimal, r1);
    } else {
      assert x[k] == L(EncodeAllergies(p.allergies, r0)) && y[f(k)] == L(EncodeAllergies(p.allergies, r1));
    }
  }

  lemma OptionalKeyRenamed(p: Person, r0: string -> string, r1: string -> string, f: string -> string, k: string)
    requires CarriesFields(r0, r1, f) && SeparatesFields(r0) && SeparatesFields(r1)
    requires k in EncodeRecord(p, r0)
    requires k == r0("secondFavoriteAnimal") || k == r0("thirdFavoriteAnimal")
    ensures f(k) in EncodeRecord(p, r1)
    ensures Renamed(EncodeRecord(p, r0)[k], EncodeRecord(p, r1)[f(k)], f)
  {
    var x := EncodeRecord(p, r0);
    var y := EncodeRecord(p, r1);
    EncodedFields(p, r0);
    EncodedFields(p, r1);
    if k == r0("secondFavoriteAnimal") {
      var a := p.secondFavoriteAnimal.value;
      assert x[k] == EncodeAnimal(a, r0) && y[f(k)] == EncodeAnimal(a, r1);
    } else {
      var a := p.thirdFavoriteAnimal.value;
      assert x[k] == EncodeAnimal(a, r0) && y[f(k)] == EncodeAnimal(a, r1);
    }
  }

  lemma RecordKeyHasSource(p: Person, r0: string -> string, r1: string -> string, f: string -> string, k': string)
    requires CarriesFields(r0, r1, f) && SeparatesFields(r0) && SeparatesFields(r1)
    requires k' in EncodeRecord(p, r1)
    ensures exists k :: k in EncodeRecord(p, r0) && f(k) == k'
  {
    var x := EncodeRecord(p, r0);
    RecordKeys(p, r1, k');
    if k' == r1("secondFavoriteAnimal") {
      EncodedFields(p, r1);
      EncodedFields(p, r0);
      assert r0("secondFavoriteAnimal") in x;
    } else if k' == r1("thirdFavoriteAnimal") {
      EncodedFields(p, r1);
      EncodedFields(p, r0);
      assert r0("thirdFavoriteAnimal") in x;
    } else if k' == r1("firstName") {
      assert r0("firstName") in x;
    } else if k' == r1("lastName") {
      assert r0("lastName") in x;
    } else if k' == r1("age") {
      assert r0("age") in x;
    } else if k' == r1("favoriteAnimal") {
      assert r0("favoriteAnimal") in x;
    } else {
      assert r0("allergies") in x;
    }
  }

  /**
   * Encoding under two namings gives the same item up to renaming its keys, at every depth: the
   * case settings change the keys and nothing else.
   */
  lemma RecordRenamed(p: Person, r0: string -> string, r1: string -> string, f: string -> string)
    requires CarriesKeys(r0, r1, f) && SeparatesFields(r0) && SeparatesFields(r1)
    ensures RenamedItem(EncodeRecord(p, r0), EncodeRecord(p, r1), f)
  {
    var x := EncodeRecord(p, r0);
    var y := EncodeRecord(p, r1);
    CarriesKeysFields(r0, r1, f);
    AllergiesRenamed(p.allergies, r0, r1, f);
    forall k | k in x ensures f(k) in y && Renamed(x[k], y[f(k)], f) {
      RecordKeys(p, r0, k);
      if k == r0("firstName") || k == r0("lastName") || k == r0("age") {
        ScalarKeyRenamed(p, r0, r1, f, k);
      } else if k == r0("favoriteAnimal") || k == r0("allergies") {
        NestedKeyRenamed(p, r0, r1, f, k);
      } else {
        OptionalKeyRenamed(p, r0, r1, f, k);
      }
    }
    forall k' | k' in y ensures exists k :: k in x && f(k) == k' {
      RecordKeyHasSource(p, r0, r1, f, k');
    }
  }

  /**
   * Every key of the item encoded with settings `cs`, at every depth, is the converted key of the
   * item encoded without conversion.
   */
  lemma EncodingRenamesEveryKey(p: Person, cs: CaseSettings)
    ensures RenamedItem(EncodePerson(p, Identity), EncodePerson(p, cs), key => Key(key, cs))
  {
    KeysSeparateFields(Identity);
    KeysSeparateFields(cs);
    var r0 := Renaming(Identity);
    var r1 := Renaming(cs);
    var f := key => Key(key, cs);
    assert CarriesKeys(r0, r1, f);
    RecordRenamed(p, r0, r1, f);
  }
}

=== FILE: person_fixtures.dfy ===
/**
 * The person of the coding tests and the items it encodes to with and without renaming keys.
 * Each expected item is written out literally; the lemmas show that the codec produces it and
 * reads it back.
 */
module PersonFixtures {
  import opened Wrappers
  import opened Casing
  import opened Tagged
  import opened PersonCodec
  import opened SchemaKeys

  const Jane := Person(
    "Jane", "Smith", 45, Cat, Some(Other("meerkat")), None,
    [Allergy("pollen", "nature", Medium), Allergy("peanuts", "food", High)])


  /** The item of the coding tests, its ten keys spelled as given. */
  function JaneItem(
    firstName: string, lastName: string, age: string, favoriteAnimal: string, rawValue: string,
    secondFavoriteAnimal: string, allergies: string, name: string, category: string, severity: string): Item
  {
    map[
      firstName := S("Jane"),
      favoriteAnimal := M(map[rawValue := S("cat")]),
      age := N("45"),
      lastName := S("Smith"),
      secondFavoriteAnimal := M(map[rawValue := S("meerkat")]),
      allergies := L([
        M(map[name := S("pollen"), category := S("nature"), severity := S("medium")]),
        M(map[name := S("peanuts"), category := S("food"), severity := S("high")])])]
  }

  const CamelItem := JaneItem("firstName", "lastName", "age", "favoriteAnimal", "rawValue",
    "secondFavoriteAnimal", "allergies", "name", "category", "severity")
  const SnakeItem := JaneItem("first_name", "last_name", "age", "favorite_animal", "raw_value",
    "second_favorite_animal", "allergies", "name", "category", "severity")
  const PascalItem := JaneItem("FirstName", "LastName", "Age", "FavoriteAnimal", "RawValue",
    "SecondFavoriteAnimal", "Allergies", "Name", "Category", "Severity")

  /** Jane's fields encode to the values of the test items. */
  lemma JaneValues(rename: string -> string)
    ensures IntToDecimal(Jane.age as int) == "45"
    ensures EncodeAnimal(Jane.favoriteAnimal, rename) == M(map[rename("rawValue") := S("cat")])
    ensures EncodeAnimal(Jane.secondFavoriteAnimal.value, rename) == M(map[rename("rawValue") := S("meerkat")])
    ensures EncodeAllergies(Jane.allergies, rename) == [
      M(map[rename("name") := S("pollen"), rename("category") := S("nature"), rename("severity") := S("medium")]),
      M(map[rename("name") := S("peanuts"), rename("category") := S("food"), rename("severity") := S("high")])]
  {
    assert IntToDecimal(45) == NatToDecimal(45);
  }

  /** A map display does not depend on the order of its distinct keys. */
  lemma SixKeysInAnyOrder<V>(k1: string, k2: string, k3: string, k4: string, k5: string, k6: string,
                            v1: V, v2: V, v3: V, v4: V, v5: V, v6: V)
    requires k1 != k2 && k1 != k3 && k1 != k4 && k1 != k5 && k1 != k6
    requires k2 != k3 && k2 != k4 && k2 != k5 && k2 != k6
    requires k3 != k4 && k3 != k5 && k3 != k6 && k4 != k5 && k4 != k6 && k5 != k6
    ensures map[k1 := v1, k2 := v2, k3 := v3, k4 := v4, k5 := v5] + map[k6 := v6] + map[]
         == map[k1 := v1, k4 := v4, k3 := v3, k2 := v2, k6 := v6, k5 := v5]
  {
  }

  /** What `Jane` encodes to, for any renaming that keeps the fields apart. */
  lemma EncodeJaneRenamed(rename: string -> string)
    requires SeparatesFields(rename)
    ensures EncodeRecord(Jane, rename) == JaneItem(
      rename("firstName"), rename("lastName"), rename("age"), rename("favoriteAnimal"),
      rename("rawValue"), rename("secondFavoriteAnimal"), rename("allergies"),
      rename("name"), rename("category"), rename("severity"))
  {
    JaneValues(rename);
    var keys := RenameAll(PersonFields, rename);
    assert keys[0] != keys[1] && keys[0] != keys[2] && keys[0] != keys[3] && keys[0] != keys[4] && keys[0] != keys[5];
    assert keys[1] != keys[2] && keys[1] != keys[3] && keys[1] != keys[4] && keys[1] != keys[5];
    assert keys[2] != keys[3] && keys[2] != keys[4] && keys[2] != keys[5];
    assert keys[3] != keys[4] && keys[3] != keys[5] && keys[4] != keys[5];
    SixKeysInAnyOrder(keys[0], keys[1], keys[2], keys[3], keys[4], keys[5],
      S("Jane"), S("Smith"), N("45"), M(map[rename("rawValue") := S("cat")]),
      L(EncodeAllergies(Jane.allergies, rename)), M(map[rename("rawValue") := S("meerkat")]));
  }

  /** Settings whose two styles agree rename nothing: the keys are the field names. */
  lemma EncodeJaneSameStyle(cs: CaseSettings)
    requires cs.source == cs.target
    ensures EncodePerson(Jane, cs) == CamelItem
  {
    var rename := Renaming(cs);
    var k1, k2, k3, k4, k5 := rename("firstName"), rename("lastName"), rename("age"), rename("favoriteAnimal"), rename("rawValue");
    var k6, k7, k8, k9, k10 := rename("secondFavoriteAnimal"), rename("allergies"), rename("name"), rename("category"), rename("severity");
    assert k1 == "firstName" && k2 == "lastName" && k3 == "age" && k4 == "favoriteAnimal" && k5 == "rawValue";
    assert k6 == "secondFavoriteAnimal" && k7 == "allergies" && k8 == "name" && k9 == "category" && k10 == "severity";
    KeysSeparateFields(cs);
    EncodeJaneRenamed(rename);
  }

  /** `testEncode`: without case settings the keys are the field names. */
  lemma EncodeJane()
    ensures EncodePerson(Jane, Identity) == CamelItem
  {
    EncodeJaneSameStyle(Identity);
  }

  /** `testEncodeSnake`. */
  lemma EncodeJaneSnake()
    ensures EncodePerson(Jane, CamelToSnakeSettings) == SnakeItem
  {
    KeysSeparateFields(CamelToSnakeSettings);
    EncodeJaneRenamed(Renaming(CamelToSnakeSettings));
    SnakeKeys();
  }

  /** `testEncodePascal`. */
  lemma EncodeJanePascal()
    ensures EncodePerson(Jane, CamelToPascalSettings) == PascalItem
  {
    KeysSeparateFields(CamelToPascalSettings);
    EncodeJaneRenamed(Renaming(CamelToPascalSettings));
    PascalKeys();
  }

  /** `testDecode`, `testDecodeSnake` and `testDecodePascal`: each item decodes to the same person. */
  lemma DecodeJane()
    ensures DecodePerson(CamelItem, Identity) == Success(Jane)
    ensures DecodePerson(SnakeItem, CamelToSnakeSettings) == Success(Jane)
    ensures DecodePerson(PascalItem, CamelToPascalSettings) == Success(Jane)
  {
    EncodeJane();
    RoundTrip(Jane, Identity);
    EncodeJaneSnake();
    RoundTrip(Jane, CamelToSnakeSettings);
    EncodeJanePascal();
    RoundTrip(Jane, CamelToPascalSettings);
  }

  /** Reading the snake item without the settings it was written with finds no `firstName` key. */
  lemma DecodeSnakeItemWithoutSettings()
    ensures DecodePerson(SnakeItem, Identity) == Failure(MissingRequiredField("firstName"))
  {
    assert "firstName" !in SnakeItem;
  }
}

=== FILE: schema_keys.dfy ===
/** The keys the schema's field names convert to, worked out word by word. */
module SchemaKeys {
  import opened Casing
  import opened PersonCodec

  const CamelToSnakeSettings := CaseSettings(Camel, Snake)
  const CamelToPascalSettings := CaseSettings(Camel, Pascal)

  /** The snake key of a camel name of two words, the second `[B] + b`. */
  lemma SnakeOfTwoWords(a: string, B: char, b: string)
    requires HasNoUpper(a) && IsUpper(B) && HasNoUpper(b)
    ensures Key(a + [B] + b, CamelToSnakeSettings) == a + ['_', ToLower(B)] + b
  {
    CamelToSnakeAppend(a, [B] + b);
    CamelToSnakeKeepsLowerWord(a);
    CamelToSnakeCapitalisedWord([B] + b);
    assert ([B] + b)[1..] == b;
    assert a + [B] + b == a + ([B] + b);
    assert a + ['_', ToLower(B)] + b == a + (['_', ToLower(B)] + b);
  }

  /** The snake key of a camel name of three words. */
  lemma SnakeOfThreeWords(a: string, B: char, b: string, C: char, c: string)
    requires HasNoUpper(a) && IsUpper(B) && HasNoUpper(b) && IsUpper(C) && HasNoUpper(c)
    ensures Key(a + [B] + b + [C] + c, CamelToSnakeSettings) == a + ['_', ToLower(B)] + b + ['_', ToLower(C)] + c
  {
    SnakeOfTwoWords(a, B, b);
    CamelToSnakeAppend(a + [B] + b, [C] + c);
    CamelToSnakeCapitalisedWord([C] + c);
    assert ([C] + c)[1..] == c;
    assert a + [B] + b + [C] + c == (a + [B] + b) + ([C] + c);
    assert a + ['_', ToLower(B)] + b + ['_', ToLower(C)] + c == (a + ['_', ToLower(B)] + b) + (['_', ToLower(C)] + c);
  }

  /** A name of one lower-case word is its own snake key. */
  lemma SnakeKeyOfOneWord(x: string)
    requires HasNoUpper(x)
    ensures Key(x, CamelToSnakeSettings) == x
  {
    CamelToSnakeKeepsLowerWord(x);
  }

  lemma SnakeKeyOfFirstName()
    ensures Key("firstName", CamelToSnakeSettings) == "first_name"
  {
    SnakeOfTwoWords("first", 'N', "ame");
    assert "first" + ['N'] + "ame" == "firstName";
    assert "first" + ['_', ToLower('N')] + "ame" == "first_name";
  }

  lemma SnakeKeyOfLastName()
    ensures Key("lastName", CamelToSnakeSettings) == "last_name"
  {
    SnakeOfTwoWords("last", 'N', "ame");
    assert "last" + ['N'] + "ame" == "lastName";
    assert "last" + ['_', ToLower('N')] + "ame" == "last_name";
  }

  lemma SnakeKeyOfFavoriteAnimal()
    ensures Key("favoriteAnimal", CamelToSnakeSettings) == "favorite_animal"
  {
    SnakeOfTwoWords("favorite", 'A', "nimal");
    assert "favorite" + ['A'] + "nimal" == "favoriteAnimal";
    assert "favorite" + ['_', ToLower('A')] + "nimal" == "favorite_animal";
  }

  lemma SnakeKeyOfRawValue()
    ensures Key("rawValue", CamelToSnakeSettings) == "raw_value"
  {
    SnakeOfTwoWords("raw", 'V', "alue");
    assert "raw" + ['V'] + "alue" == "rawValue";
    assert "raw" + ['_', ToLower('V')] + "alue" == "raw_value";
  }

  lemma SnakeKeyOfSecondFavoriteAnimal()
    ensures Key("secondFavoriteAnimal", CamelToSnakeSettings) == "second_favorite_animal"
  {
    SnakeOfThreeWords("second", 'F', "avorite", 'A', "nimal");
    assert "second" + ['F'] + "avorite" + ['A'] + "nimal" == "secondFavoriteAnimal";
    assert "second" + ['_', ToLower('F')] + "avorite" + ['_', ToLower('A')] + "nimal" == "second_favorite_animal";
  }

  /** The snake keys of the schema's field names. */
  lemma SnakeKeys()
    ensures Key("firstName", CamelToSnakeSettings) == "first_name"
    ensures Key("lastName", CamelToSnakeSettings) == "last_name"
    ensures Key("age", CamelToSnakeSettings) == "age"
    ensures Key("favoriteAnimal", CamelToSnakeSettings) == "favorite_animal"
    ensures Key("rawValue", CamelToSnakeSettings) == "raw_value"
    ensures Key("secondFavoriteAnimal", CamelToSnakeSettings) == "second_favorite_animal"
    ensures Key("allergies", CamelToSnakeSettings) == "allergies"
    ensures Key("name", CamelToSnakeSettings) == "name"
    ensures Key("category", CamelToSnakeSettings) == "category"
    ensures Key("severity", CamelToSnakeSettings) == "severity"
  {
    SnakeKeyOfFirstName();
    SnakeKeyOfLastName();
    SnakeKeyOfFavoriteAnimal();
    SnakeKeyOfRawValue();
    SnakeKeyOfSecondFavoriteAnimal();
    SnakeKeyOfOneWord("age");
    SnakeKeyOfOneWord("allergies");
    SnakeKeyOfOneWord("name");
    SnakeKeyOfOneWord("category");
    SnakeKeyOfOneWord("severity");
  }

  // The Pascal key of a camel name only capitalises its first letter, which the verifier works
  // out from the definitions; the names are grouped to keep each proof small.

  lemma PascalKeysOfNames()
    ensures Key("firstName", CamelToPascalSettings) == "FirstName"
    ensures Key("lastName", CamelToPascalSettings) == "LastName"
    ensures Key("age", CamelToPascalSettings) == "Age"
  {
  }

  lemma PascalKeysOfAnimals()
    ensures Key("favoriteAnimal", CamelToPascalSettings) == "FavoriteAnimal"
    ensures Key("secondFavoriteAnimal", CamelToPascalSettings) == "SecondFavoriteAnimal"
  {
  }

  lemma PascalKeysOfNestedFields()
    ensures Key("allergies", CamelToPascalSettings) == "Allergies"
    ensures Key("rawValue", CamelToPascalSettings) == "RawValue"
    ensures Key("name", CamelToPascalSettings) == "Name"
    ensures Key("category", CamelToPascalSettings) == "Category"
    ensures Key("severity", CamelToPascalSettings) == "Severity"
  {
  }

  /** The Pascal keys of the schema's field names: each gets a capital first letter. */
  lemma PascalKeys()
    ensures Key("firstName", CamelToPascalSettings) == "FirstName"
    ensures Key("lastName", CamelToPascalSettings) == "LastName"
    ensures Key("age", CamelToPascalSettings) == "Age"
    ensures Key("favoriteAnimal", CamelToPascalSettings) == "FavoriteAnimal"
    ensures Key("rawValue", CamelToPascalSettings) == "RawValue"
    ensures Key("secondFavoriteAnimal", CamelToPascalSettings) == "SecondFavoriteAnimal"
    ensures Key("allergies", CamelToPascalSettings) == "Allergies"
    ensures Key("name", CamelToPascalSettings) == "Name"
    ensures Key("category", CamelToPascalSettings) == "Category"
    ensures Key("severity", CamelToPascalSettings) == "Severity"
  {
    PascalKeysOfNames();
    PascalKeysOfAnimals();
    PascalKeysOfNestedFields();
  }
}

=== FILE: sns.dfy ===
/** Notification (SNS) events: records and the batch handler (Sources/SNS.swift). */
module SNS {
  import opened Wrappers
  import opened Json
  import opened Foundation
  import opened Collections
  import Dispatch

  /** The one `dateFormat` of the shared formatter that reads `Timestamp`. */
  const TimestampFormat: string := "yyyy-MM-dd'T'HH:mm:ss.SSSZ"

  datatype SnsRecord = SnsRecord(
    eventSource: string,
    eventSubscriptionArn: string,
    unsubscribeUrl: string,
    timestamp: Date,
    message: string,
    topicArn: string,
    messageId: string,
    subject: Option<string>)

  /** Every condition under which `SNSRecord(dict:)` succeeds; `Subject` is not among them. */
  ghost predicate Parseable(dict: Object, p: Parsers) {
    && StringAt(dict, "EventSource").Some?
    && StringAt(dict, "EventSubscriptionArn").Some?
    && AsObject(Get(dict, "Sns")).Some?
    && var sns := dict["Sns"].fields;
      && StringAt(sns, "UnsubscribeUrl").Some?
      && StringAt(sns, "Timestamp").Some?
      && p.date(TimestampFormat, sns["Timestamp"].str).Some?
      && StringAt(sns, "Message").Some?
      && StringAt(sns, "TopicArn").Some?
      && StringAt(sns, "MessageId").Some?
  }

  /** `SNSRecord(dict:)` */
  function ParseSnsRecord(dict: Object, p: Parsers): (r: Option<SnsRecord>)
    ensures r.Some? <==> Parseable(dict, p)
    ensures r.Some? ==>
      && r.value.eventSource == dict["EventSource"].str
      && r.value.eventSubscriptionArn == dict["EventSubscriptionArn"].str
    ensures r.Some? ==>
      var sns := dict["Sns"].fields;
      && r.value.unsubscribeUrl == sns["UnsubscribeUrl"].str
      && Some(r.value.timestamp) == p.date(TimestampFormat, sns["Timestamp"].str)
      && r.value.message == sns["Message"].str
      && r.value.topicArn == sns["TopicArn"].str
      && r.value.messageId == sns["MessageId"].str
      && r.value.subject == StringAt(sns, "Subject")
  {
    var eventSource :- StringAt(dict, "EventSource");
    var eventSubscriptionArn :- StringAt(dict, "EventSubscriptionArn");
    var sns :- AsObject(Get(dict, "Sns"));
    var unsubscribeUrl :- StringAt(sns, "UnsubscribeUrl");
    var timestampStr :- StringAt(sns, "Timestamp");
    var timestamp :- p.date(TimestampFormat, timestampStr);
    var message :- StringAt(sns, "Message");
    var topicArn :- StringAt(sns, "TopicArn");
    var messageId :- StringAt(sns, "MessageId");
    Some(SnsRecord(eventSource, eventSubscriptionArn, unsubscribeUrl, timestamp, message, topicArn, messageId,
      StringAt(sns, "Subject")))
  }

  /** `dict` with `Sns.Subject` set to `subject`, or removed when `subject` is None. */
  function WithSubject(dict: Object, subject: Option<Json>): Object
    requires AsObject(Get(dict, "Sns")).Some?
  {
    var sns := dict["Sns"].fields;
    var sns' := match subject
      case Some(v) => sns["Subject" := v]
      case None => sns - {"Subject"};
    dict["Sns" := JObject(sns')]
  }

  /**
   * `Subject` is optional: adding, changing or removing it never decides whether a record parses,
   * and only the record's `subject` changes.
   */
  lemma SubjectNeverDecidesParsing(dict: Object, p: Parsers, subject: Option<Json>)
    requires AsObject(Get(dict, "Sns")).Some?
    ensures var r, r' := ParseSnsRecord(dict, p), ParseSnsRecord(WithSubject(dict, subject), p);
      && (r.Some? <==> r'.Some?)
      && (r.Some? ==> r'.value == r.value.(subject := AsString(subject)))
  {
    var sns := dict["Sns"].fields;
    var sns' := WithSubject(dict, subject)["Sns"].fields;
    assert forall k :: k != "Subject" ==> Get(sns, k) == Get(sns', k);
    assert StringAt(sns', "Subject") == AsString(subject);
  }

  /**
   * The timestamp is read only with the fixed `yyyy-MM-dd'T'HH:mm:ss.SSSZ` format: two date
   * parsers that agree on that format give the same result.
   */
  lemma OnlyTimestampFormatMatters(dict: Object, p: Parsers, q: Parsers)
    requires forall s :: p.date(TimestampFormat, s) == q.date(TimestampFormat, s)
    ensures ParseSnsRecord(dict, p) == ParseSnsRecord(dict, q)
  {
  }

  /** The record parser the handler maps over the raw records. */
  function RecordParser(p: Parsers): Object -> Option<SnsRecord> {
    raw => ParseSnsRecord(raw, p)
  }

  /**
   * `SNSLambdaEventHandler.handle(data:eventLoopGroup:)`: the records that parse, in delivery order, go to the
   * handler; its success is answered with `[:]` and its failure is passed on.
   */
  function Handle(data: Object, p: Parsers, handler: seq<SnsRecord> -> Dispatch.HandlerOutcome): (r: Dispatch.Invocation<SnsRecord>)
    ensures Dispatch.RawRecords(data).None? ==> r == Dispatch.Invocation(None, Dispatch.Succeeded(map[]))
    ensures Dispatch.RawRecords(data).Some? ==>
      r.delivered == Some(CompactMap(Dispatch.RawRecords(data).value, RecordParser(p)))
    ensures Dispatch.RawRecords(data).Some? ==>
      var raw := Dispatch.RawRecords(data).value;
      && |r.delivered.value| <= |raw|
      && (forall rec :: rec in r.delivered.value ==> exists i :: 0 <= i < |raw| && ParseSnsRecord(raw[i], p) == Some(rec))
    ensures r.delivered.Some? ==>
      r.completion == match handler(r.delivered.value)
        case Done => Dispatch.Succeeded(map[])
        case Failed(e) => Dispatch.Propagated(e)
  {
    var r := Dispatch.Handle(data, RecordParser(p), handler);
    assert Dispatch.RawRecords(data).Some? ==>
      var raw := Dispatch.RawRecords(data).value;
      forall rec :: rec in r.delivered.value ==> exists i :: 0 <= i < |raw| && ParseSnsRecord(raw[i], p) == Some(rec)
    by {
      if Dispatch.RawRecords(data).Some? {
        var idx := Dispatch.HandleDeliversParsedInOrder(data, RecordParser(p), handler);
      }
    }
    r
  }
}

=== FILE: sqs.dfy ===
/** Queue (SQS) events: message attributes, records and the batch handler (Sources/SQS.swift). */
module SQS {
  import opened Wrappers
  import opened Json
  import opened Foundation
  import opened Collections
  import Dispatch

  /** One typed message attribute. */
  datatype MessageAttributeValue = MessageAttributeValue(
    binaryListValues: seq<Data>,
    binaryValue: Option<Data>,
    stringValue: Option<string>,
    stringListValues: seq<string>,
    dataType: string)

  /** `dict[key] as? [String] ?? []` */
  function StringListAt(dict: Object, key: string): seq<string> {
    AsStringArray(Get(dict, key)).GetOr([])
  }

  /**
   * `SQSMessageAttributeValue(dict:)`: fails exactly when `dataType` is missing or not a string;
   * every other entry is optional, lists default to empty and undecodable binary entries are dropped.
   */
  function ParseMessageAttributeValue(dict: Object, p: Parsers): (r: Option<MessageAttributeValue>)
    ensures r.Some? <==> StringAt(dict, "dataType").Some?
    ensures r.Some? ==> r.value.dataType == dict["dataType"].str
    ensures r.Some? ==> r.value.stringValue == StringAt(dict, "stringValue")
    ensures r.Some? ==> AsStringArray(Get(dict, "stringListValues")).None? ==> r.value.stringListValues == []
    ensures r.Some? ==> AsStringArray(Get(dict, "binaryListValues")).None? ==> r.value.binaryListValues == []
    ensures r.Some? ==> AsStringArray(Get(dict, "stringListValues")).Some? ==>
      r.value.stringListValues == AsStringArray(Get(dict, "stringListValues")).value
    ensures r.Some? ==> |r.value.binaryListValues| <= |StringListAt(dict, "binaryListValues")|
    ensures r.Some? ==> (r.value.binaryValue.Some? <==>
      StringAt(dict, "binaryValue").Some? && p.base64URL(dict["binaryValue"].str).Some?)
    ensures r.Some? && StringAt(dict, "binaryValue").Some? ==>
      r.value.binaryValue == p.base64URL(dict["binaryValue"].str)
  {
    match StringAt(dict, "dataType")
    case None => None
    case Some(dataType) =>
      var binaryValue :=
        match StringAt(dict, "binaryValue")
        case Some(s) => p.base64URL(s)
        case None => None;
      Some(MessageAttributeValue(
        binaryListValues := CompactMap(StringListAt(dict, "binaryListValues"), p.base64URL),
        binaryValue := binaryValue,
        stringValue := StringAt(dict, "stringValue"),
        stringListValues := StringListAt(dict, "stringListValues"),
        dataType := dataType))
  }

  /** Binary list entries are decoded one by one: those that fail are dropped, the others keep their order. */
  lemma BinaryListKeepsDecodableEntries(dict: Object, p: Parsers) returns (idx: seq<nat>)
    requires StringAt(dict, "dataType").Some?
    ensures var raw := StringListAt(dict, "binaryListValues");
      var bins := ParseMessageAttributeValue(dict, p).value.binaryListValues;
      && |idx| == |bins|
      && IncreasingIndices(idx, |raw|)
      && (forall j :: 0 <= j < |idx| ==> p.base64URL(raw[idx[j]]) == Some(bins[j]))
      && (forall i :: 0 <= i < |raw| ==> (p.base64URL(raw[i]).Some? <==> i in idx))
  {
    idx := CompactMapIsOrderedSubsequence(StringListAt(dict, "binaryListValues"), p.base64URL);
  }

  /** `s.starts(with: prefix)` */
  predicate StartsWith(s: string, prefix: string) {
    |prefix| <= |s| && s[..|prefix|] == prefix
  }

  /** `dataType.starts(with: "Number.") || dataType == "Number"` */
  predicate IsNumberType(dataType: string) {
    StartsWith(dataType, "Number.") || dataType == "Number"
  }

  /** `numberValue`: the decimal reading of `stringValue`, offered only for `Number` data types. */
  function NumberValue(a: MessageAttributeValue, p: Parsers): (r: Option<real>)
    ensures r.Some? ==> a.stringValue.Some? && IsNumberType(a.dataType)
    ensures a.stringValue.Some? && IsNumberType(a.dataType) ==> r == p.decimal(a.stringValue.value)
  {
    if a.stringValue.Some? && IsNumberType(a.dataType) then p.decimal(a.stringValue.value) else None
  }

  /** `numberListValues`: the parseable entries of `stringListValues`, only for `Number` data types. */
  function NumberListValues(a: MessageAttributeValue, p: Parsers): (r: seq<real>)
    ensures !IsNumberType(a.dataType) ==> r == []
    ensures |r| <= |a.stringListValues|
  {
    if IsNumberType(a.dataType) then CompactMap(a.stringListValues, p.decimal) else []
  }

  /** For a `Number` attribute, the number list is the in-order list of the entries that parse. */
  lemma NumberListKeepsParseableInOrder(a: MessageAttributeValue, p: Parsers) returns (idx: seq<nat>)
    requires IsNumberType(a.dataType)
    ensures var nums := NumberListValues(a, p);
      && |idx| == |nums|
      && IncreasingIndices(idx, |a.stringListValues|)
      && (forall j :: 0 <= j < |idx| ==> p.decimal(a.stringListValues[idx[j]]) == Some(nums[j]))
      && (forall i :: 0 <= i < |a.stringListValues| ==> (p.decimal(a.stringListValues[i]).Some? <==> i in idx))
  {
    idx := CompactMapIsOrderedSubsequence(a.stringListValues, p.decimal);
  }

  /** Names such as "Number.float" and "Number" itself are number types; "String" and "Numbers" are not. */
  lemma NumberTypeExamples()
    ensures IsNumberType("Number") && IsNumberType("Number.float")
    ensures !IsNumberType("String") && !IsNumberType("Numbers") && !IsNumberType("Number_x")
  {
    assert "Number.float"[..7] == "Number.";
    assert "Numbers"[..7][6] != "Number."[6];
  }

  datatype SqsRecord = SqsRecord(
    body: string,
    awsRegion: string,
    eventSource: string,
    receiptHandle: string,
    messageId: string,
    eventSourceARN: string,
    senderId: string,
    sentTimestamp: Date,
    approximateFirstReceiveTimestamp: Date,
    approximateReceiveCount: int,
    messageAttributes: map<string, MessageAttributeValue>)

  /** `extractRootKey(dict:key:)` */
  function ExtractRootKey(dict: Object, key: string): (r: Option<string>)
    ensures r.Some? <==> key in dict && dict[key].JString?
    ensures r.Some? ==> r.value == dict[key].str
  {
    StringAt(dict, key)
  }

  /** `extactUnixTime(dict:key:)`: a millisecond count in a string, read as a `Date`. */
  function ExtractUnixTime(dict: Object, key: string, p: Parsers): (r: Option<Date>)
    ensures r.Some? <==> ExtractRootKey(dict, key).Some? && p.timeInterval(dict[key].str).Some?
    ensures r.Some? ==> r.value.timeIntervalSince1970 * 1000.0 == p.timeInterval(dict[key].str).value
  {
    match ExtractRootKey(dict, key)
    case None => None
    case Some(s) =>
      match p.timeInterval(s)
      case None => None
      case Some(milli) => Some(Date(milli / 1000.0))
  }

  /** Every condition under which `SQSRecord(dict:)` succeeds. */
  ghost predicate Parseable(dict: Object, p: Parsers) {
    && ExtractRootKey(dict, "body").Some?
    && ExtractRootKey(dict, "awsRegion").Some?
    && ExtractRootKey(dict, "eventSource").Some?
    && ExtractRootKey(dict, "receiptHandle").Some?
    && ExtractRootKey(dict, "messageId").Some?
    && ExtractRootKey(dict, "eventSourceARN").Some?
    && AsObject(Get(dict, "attributes")).Some?
    && var attributes := dict["attributes"].fields;
      && ExtractRootKey(attributes, "SenderId").Some?
      && ExtractUnixTime(attributes, "SentTimestamp", p).Some?
      && ExtractUnixTime(attributes, "ApproximateFirstReceiveTimestamp", p).Some?
      && ExtractRootKey(attributes, "ApproximateReceiveCount").Some?
      && p.integer(attributes["ApproximateReceiveCount"].str).Some?
  }

  /**
   * The `messageAttributes` of a record: when the entry is a dictionary of dictionaries, every
   * entry whose attribute parses, under its own key; otherwise none at all.
   */
  function MessageAttributes(dict: Object, p: Parsers): (r: map<string, MessageAttributeValue>)
    ensures AsObjectOfObjects(Get(dict, "messageAttributes")).None? ==> r == map[]
    ensures AsObjectOfObjects(Get(dict, "messageAttributes")).Some? ==>
      var raw := dict["messageAttributes"].fields;
      && (forall k :: k in r <==> k in raw && StringAt(raw[k].fields, "dataType").Some?)
      && (forall k :: k in r ==> Some(r[k]) == ParseMessageAttributeValue(raw[k].fields, p))
  {
    var raw := AsObjectOfObjects(Get(dict, "messageAttributes")).GetOr(map[]);
    map k | k in raw && ParseMessageAttributeValue(raw[k], p).Some? :: ParseMessageAttributeValue(raw[k], p).value
  }

  /** `SQSRecord(dict:)` */
  function ParseSqsRecord(dict: Object, p: Parsers): (r: Option<SqsRecord>)
    ensures r.Some? <==> Parseable(dict, p)
    ensures r.Some? ==>
      && r.value.body == dict["body"].str
      && r.value.awsRegion == dict["awsRegion"].str
      && r.value.eventSource == dict["eventSource"].str
      && r.value.receiptHandle == dict["receiptHandle"].str
      && r.value.messageId == dict["messageId"].str
      && r.value.eventSourceARN == dict["eventSourceARN"].str
    ensures r.Some? ==>
      var attributes := dict["attributes"].fields;
      && r.value.senderId == attributes["SenderId"].str
      && Some(r.value.approximateReceiveCount) == p.integer(attributes["ApproximateReceiveCount"].str)
      && Some(r.value.sentTimestamp) == ExtractUnixTime(attributes, "SentTimestamp", p)
      && Some(r.value.approximateFirstReceiveTimestamp) == ExtractUnixTime(attributes, "ApproximateFirstReceiveTimestamp", p)
    ensures r.Some? ==> r.value.messageAttributes == MessageAttributes(dict, p)
  {
    var body :- ExtractRootKey(dict, "body");
    var awsRegion :- ExtractRootKey(dict, "awsRegion");
    var eventSource :- ExtractRootKey(dict, "eventSource");
    var receiptHandle :- ExtractRootKey(dict, "receiptHandle");
    var messageId :- ExtractRootKey(dict, "messageId");
    var eventSourceARN :- ExtractRootKey(dict, "eventSourceARN");
    var attributes :- AsObject(Get(dict, "attributes"));
    var senderId :- ExtractRootKey(attributes, "SenderId");
    var sentTimestamp :- ExtractUnixTime(attributes, "SentTimestamp", p);
    var approximateFirstReceiveTimestamp :- ExtractUnixTime(attributes, "ApproximateFirstReceiveTimestamp", p);
    var approximateReceiveCountStr :- ExtractRootKey(attributes, "ApproximateReceiveCount");
    var approximateReceiveCount :- p.integer(approximateReceiveCountStr);
    Some(SqsRecord(body, awsRegion, eventSource, receiptHandle, messageId, eventSourceARN, senderId,
      sentTimestamp, approximateFirstReceiveTimestamp, approximateReceiveCount, MessageAttributes(dict, p)))
  }

  /** The record parser the handler maps over the raw records. */
  function RecordParser(p: Parsers): Object -> Option<SqsRecord> {
    raw => ParseSqsRecord(raw, p)
  }

  /**
   * `SQSLambdaEventHandler.handle(data:eventLoopGroup:)`: the records that parse, in delivery order, go to the
   * handler; its success is answered with `[:]` and its failure is passed on.
   */
  function Handle(data: Object, p: Parsers, handler: seq<SqsRecord> -> Dispatch.HandlerOutcome): (r: Dispatch.Invocation<SqsRecord>)
    ensures Dispatch.RawRecords(data).None? ==> r == Dispatch.Invocation(None, Dispatch.Succeeded(map[]))
    ensures Dispatch.RawRecords(data).Some? ==>
      r.delivered == Some(CompactMap(Dispatch.RawRecords(data).value, RecordParser(p)))
    ensures Dispatch.RawRecords(data).Some? ==>
      var raw := Dispatch.RawRecords(data).value;
      && |r.delivered.value| <= |raw|
      && (forall rec :: rec in r.delivered.value ==> exists i :: 0 <= i < |raw| && ParseSqsRecord(raw[i], p) == Some(rec))
    ensures r.delivered.Some? ==>
      r.completion == match handler(r.delivered.value)
        case Done => Dispatch.Succeeded(map[])
        case Failed(e) => Dispatch.Propagated(e)
  {
    var r := Dispatch.Handle(data, RecordParser(p), handler);
    assert Dispatch.RawRecords(data).Some? ==>
      var raw := Dispatch.RawRecords(data).value;
      forall rec :: rec in r.delivered.value ==> exists i :: 0 <= i < |raw| && ParseSqsRecord(raw[i], p) == Some(rec)
    by {
      if Dispatch.RawRecords(data).Some? {
        var idx := Dispatch.HandleDeliversParsedInOrder(data, RecordParser(p), handler);
      }
    }
    r
  }
}

=== FILE: sqs_example.dfy ===
/** A one-message queue delivery, written out, and what the handler receives from it. */
module SqsExample {
  import opened Wrappers
  import opened Json
  import opened Foundation
  import Collections
  import Dispatch
  import SQS

  const Attributes: Object := map[
    "SenderId" := JString("s1"),
    "SentTimestamp" := JString("1000"),
    "ApproximateFirstReceiveTimestamp" := JString("1001"),
    "ApproximateReceiveCount" := JString("1")]

  const Message: Object := map[
    "body" := JString("hi"),
    "awsRegion" := JString("us-east-1"),
    "eventSource" := JString("aws:sqs"),
    "receiptHandle" := JString("rh1"),
    "messageId" := JString("m1"),
    "eventSourceARN" := JString("arn:aws:sqs:us-east-1:123456789012:queue"),
    "attributes" := JObject(Attributes)]

  const Payload: Object := map["Records" := JArray([JObject(Message)])]

  lemma PayloadHoldsMessage()
    ensures Dispatch.RawRecords(Payload) == Some([Message])
  {
    var raw := Dispatch.RawRecords(Payload);
    assert Get(Payload, "Records") == Some(JArray([JObject(Message)]));
    assert raw.Some? && |raw.value| == 1 && raw.value[0] == Message;
    assert raw.value == [Message];
  }

  lemma MessageParses(p: Parsers)
    requires p.timeInterval("1000").Some? && p.timeInterval("1001").Some?
    requires p.integer("1") == Some(1)
    ensures var r := SQS.ParseSqsRecord(Message, p);
      && r.Some? && r.value.body == "hi" && r.value.messageId == "m1"
      && r.value.approximateReceiveCount == 1 && r.value.messageAttributes == map[]
  {
    assert Message["attributes"].fields == Attributes;
    assert SQS.ExtractUnixTime(Attributes, "SentTimestamp", p).Some?;
    assert SQS.ExtractUnixTime(Attributes, "ApproximateFirstReceiveTimestamp", p).Some?;
    assert SQS.Parseable(Message, p);
    assert "messageAttributes" !in Message;
  }

  /**
   * With parsers that read the two timestamps and the count, the handler receives exactly one
   * record, carrying the body and the receive count of the message.
   */
  lemma OneMessageDelivered(p: Parsers, handler: seq<SQS.SqsRecord> -> Dispatch.HandlerOutcome)
    requires p.timeInterval("1000").Some? && p.timeInterval("1001").Some?
    requires p.integer("1") == Some(1)
    ensures var r := SQS.Handle(Payload, p, handler);
      && r.delivered.Some? && |r.delivered.value| == 1
      && r.delivered.value[0].body == "hi"
      && r.delivered.value[0].messageId == "m1"
      && r.delivered.value[0].approximateReceiveCount == 1
      && r.delivered.value[0].messageAttributes == map[]
  {
    PayloadHoldsMessage();
    MessageParses(p);
    var parse := raw => SQS.ParseSqsRecord(raw, p);
    var rec := SQS.ParseSqsRecord(Message, p).value;
    assert Collections.CompactMap([Message], parse) == [rec];
    assert SQS.Handle(Payload, p, handler) == Dispatch.Handle(Payload, parse, handler);
  }

  /** A payload without a `Records` array reaches no handler and is acknowledged with an empty response. */
  lemma NoRecordsNoDelivery(p: Parsers, handler: seq<SQS.SqsRecord> -> Dispatch.HandlerOutcome)
    ensures SQS.Handle(map["Records" := JString("none")], p, handler)
         == Dispatch.Invocation(None, Dispatch.Succeeded(map[]))
  {
  }
}

=== FILE: tagged.dfy ===
/**
 * The tagged attribute-value wire format of the document store (`S`, `N`, `M`, `L`), with
 * numbers carried as decimal text.
 */
module Tagged {
  import opened Wrappers

  datatype TaggedValue =
    | S(s: string)                          // {"S": "..."}
    | N(n: string)                          // {"N": "45"}: a number as decimal text
    | M(m: map<string, TaggedValue>)        // {"M": {...}}: a nested record
    | L(l: seq<TaggedValue>)                // {"L": [...]}: an ordered collection

  /** A whole encoded record: field name to tagged value (what `toDynamo` returns). */
  type Item = map<string, TaggedValue>

  predicate IsDigit(c: char) { '0' <= c <= '9' }

  function DigitChar(d: nat): (c: char)
    requires d < 10
    ensures IsDigit(c)
  {
    ('0' as int + d) as char
  }

  function DigitValue(c: char): (d: nat)
    requires IsDigit(c)
    ensures d < 10
  {
    c as int - '0' as int
  }

  /** Decimal digits of a natural number, most significant first, without leading zeros. */
  function NatToDecimal(n: nat): (r: string)
    ensures |r| > 0
    ensures forall i :: 0 <= i < |r| ==> IsDigit(r[i])
  {
    if n < 10 then [DigitChar(n)] else NatToDecimal(n / 10) + [DigitChar(n % 10)]
  }

  /** The decimal text of an integer: a minus sign before the digits of a negative number. */
  function IntToDecimal(i: int): string {
    if i < 0 then "-" + NatToDecimal(-i) else NatToDecimal(i)
  }

  function DigitsValue(s: string): nat
    requires forall i :: 0 <= i < |s| ==> IsDigit(s[i])
  {
    if s == [] then 0 else DigitsValue(s[..|s| - 1]) * 10 + DigitValue(s[|s| - 1])
  }

  predicate AllDigits(s: string) {
    |s| > 0 && forall i :: 0 <= i < |s| ==> IsDigit(s[i])
  }

  /** Reads an optional minus sign followed by one or more decimal digits; anything else is not an integer. */
  function ParseInt(s: string): (r: Option<int>)
    ensures r.Some? <==> AllDigits(s) || (|s| > 0 && s[0] == '-' && AllDigits(s[1..]))
    ensures AllDigits(s) ==> r == Some(DigitsValue(s))
    ensures |s| > 0 && s[0] == '-' && AllDigits(s[1..]) ==> r == Some(0 - DigitsValue(s[1..]))
  {
    if AllDigits(s) then Some(DigitsValue(s))
    else if |s| > 0 && s[0] == '-' && AllDigits(s[1..]) then Some(0 - DigitsValue(s[1..]) as int)
    else None
  }

  lemma {:induction false} NatToDecimalRoundTrip(n: nat)
    ensures DigitsValue(NatToDecimal(n)) == n
  {
    if n >= 10 {
      NatToDecimalRoundTrip(n / 10);
      var s := NatToDecimal(n);
      assert s[..|s| - 1] == NatToDecimal(n / 10);
    }
  }

  /** Reading back the decimal text of an integer gives the integer: the `N` encoding is exact. */
  lemma IntToDecimalRoundTrip(i: int)
    ensures ParseInt(IntToDecimal(i)) == Some(i)
  {
    if i < 0 {
      NatToDecimalRoundTrip(-i);
      var s := IntToDecimal(i);
      assert s[1..] == NatToDecimal(-i);
      assert !IsDigit(s[0]);
    } else {
      NatToDecimalRoundTrip(i);
    }
  }

  /** Every key, at every depth of `v`, satisfies `P`. */
  predicate EveryKey(v: TaggedValue, P: string -> bool) {
    match v
    case S(_) => true
    case N(_) => true
    case L(items) => forall i :: 0 <= i < |items| ==> EveryKey(items[i], P)
    case M(m) => forall k :: k in m ==> P(k) && EveryKey(m[k], P)
  }

  predicate EveryItemKey(item: Item, P: string -> bool) {
    EveryKey(M(item), P)
  }

  /** Setting a key that satisfies `P` to a value whose keys all do keeps every key of the item satisfying `P`. */
  lemma EveryItemKeyOfUpdate(item: Item, k: string, v: TaggedValue, P: string -> bool)
    requires EveryItemKey(item, P) && P(k) && EveryKey(v, P)
    ensures EveryItemKey(item[k := v], P)
  {
    forall k' | k' in item[k := v] ensures P(k') && EveryKey(item[k := v][k'], P) {
      if k' != k {
        assert item[k := v][k'] == item[k'];
      }
    }
  }

  /** Merging two items whose keys all satisfy `P` gives an item whose keys all do. */
  lemma EveryItemKeyOfUnion(a: Item, b: Item, P: string -> bool)
    requires EveryItemKey(a, P) && EveryItemKey(b, P)
    ensures EveryItemKey(a + b, P)
  {
    forall k | k in a + b ensures P(k) && EveryKey((a + b)[k], P) {
      if k in b {
        assert (a + b)[k] == b[k];
      } else {
        assert (a + b)[k] == a[k];
      }
    }
  }

  /**
   * `b` is `a` with every key at every depth renamed by `f`: same tags, same leaves, same order,
   * and each map of `b` holds exactly the renamed keys of the matching map of `a`.
   */
  predicate Renamed(a: TaggedValue, b: TaggedValue, f: string -> string) {
    match (a, b)
    case (S(x), S(y)) => x == y
    case (N(x), N(y)) => x == y
    case (L(xs), L(ys)) => |xs| == |ys| && forall i :: 0 <= i < |xs| ==> Renamed(xs[i], ys[i], f)
    case (M(x), M(y)) =>
      && (forall k :: k in x ==> f(k) in y && Renamed(x[k], y[f(k)], f))
      && (forall k' :: k' in y ==> exists k :: k in x && f(k) == k')
    case _ => false
  }

  predicate RenamedItem(x: Item, y: Item, f: string -> string) {
    Renamed(M(x), M(y), f)
  }
}

=== FILE: wrappers.dfy ===
/** Optional values and typed failures, as the Swift code uses `T?` and `throws`. */
module Wrappers {

  datatype Option<+T> = None | Some(value: T) {
    predicate IsFailure() {
      None?
    }

    function PropagateFailure<U>(): Option<U>
      requires None?
    {
      None
    }

    function Extract(): T
      requires Some?
    {
      value
    }

    /** The Swift `??` operator: the wrapped value, or `default` when absent. */
    function GetOr(default: T): T {
      match this
      case Some(v) => v
      case None => default
    }
  }

  datatype Result<+T, +E> = Success(value: T) | Failure(error: E) {
    predicate IsFailure() {
      Failure?
    }

    function PropagateFailure<U>(): Result<U, E>
      requires Failure?
    {
      Failure(error)
    }

    function Extract(): T
      requires Success?
    {
      value
    }
  }
}
